=== FILE: README.md ===
# Pixel-transform engine of TargaImage, in Dafny

This project models the image operations of `TargaImage`. Each one rewrites a
width × height RGBA buffer. The operations covered are:
- grayscale conversion;
- uniform and popularity ("populosity") colour quantisation;
- threshold, random, clustered and Floyd–Steinberg dithering;
- the 5 × 5 and N × N convolution filters;
- the half-size reconstruction;
- row reversal, clearing to black, and painting a brush stroke.

## Modelling choices

- **The image.** An image is `Raster.Image(width, height, pixels)`.
  - `pixels` is a row-major `seq<Pixel>`, and each `Pixel` is four bytes (R, G, B, A).
  - `Raster.ToBytes` and `Raster.FromBytes` relate this to the source's flat byte buffer `data`. Byte `4 * k + c` is channel `c` of pixel `k`. `Raster.ReversedBytes` states Reverse_Rows' byte copy on this layout.
- **Operations return new images.** Every operation returns a new `Image` rather than mutating one.
  - Where the source works in place, the model keeps its reads and writes apart: the filters and `Reconstruct` read only from a snapshot.
  - Paint_Stroke's in-place scan is modelled step by step, and its contract says what the finished scan leaves in each pixel.
- **Luminance.** The grayscale formula `0.299 R + 0.587 G + 0.114 B`, truncated to a byte, is a parameter `lum: (byte, byte, byte) -> byte`, because the model does not reproduce float rounding. Every property that depends on it is stated in terms of `lum`.
  - In `double` the three weights add up to just below 1, so the source truncates the gray (1, 1, 1) to 0 and (2, 2, 2) to 1 (see Findings).
  - `ColorReduction.ExactLuminance` is the same formula in exact integer arithmetic, `(299 R + 587 G + 114 B) / 1000`. It maps every gray to itself.
- **Random numbers.** `rand()` becomes a sequence `rands`. Its k-th element is the value drawn for pixel k.
- **Floyd–Steinberg arithmetic.** The intensities are exact reals, whereas the source uses `float`.
  - The share of the error meant for a neighbour off the right, left or bottom edge is dropped, as the source's bounds checks drop it. `FloydSteinberg.StepAccount` and `FloydSteinberg.SumBefore` say exactly how much total intensity this costs, step by step and over the whole image.
- **Cluster thresholds.** The threshold decimals are kept as reals. The model proves that comparing `v / 256` with them is the same as comparing `v` with the integer levels `floor(256 t)`.
- **Filter arithmetic.** The weighted sums of the convolution filters are integers, because every weight is a small integer.
  - Normalisation `int(float(sum / div) + 0.5)` is modelled with reals and proved equal to `(2 sum + div) / (2 div)` in integers.
  - Storing the result into an `unsigned char` is reduction mod 256.
- **C integer arithmetic.** C's truncating `/` and `%` on the possibly negative byte offset `box_pos` are written out as `CDiv` and `CMod`.
- **Popularity distances.** The colour distance is compared in squared form, exactly as the source's `float` square roots compare.
  - Every squared distance is an integer of at most 3 × 255² = 195075, which is below the initial bound 500² (`Populosity.SqDistBelowBound`).
  - The square roots of two different squared distances differ by at least 1/884 (`Populosity.SqrtGap`).
  - Below 512 a `float` has a spacing of 2^-15, far less than 1/884, and `pow` of small integers and `sqrt` round monotonically. So two different distances never round to the same `float` or to the wrong order, and equal ones round alike.

## Model

| member | source | states |
|---|---|---|
| Raster.ClearToBlack | src/TargaImage.cpp:1269-1272 | every pixel, alpha included, becomes (0, 0, 0, 0); the dimensions are kept |
| Raster.ReversedBytes | src/TargaImage.cpp:1244-1254 | on the byte buffers, byte 4 (i · width + j) + c of the result is byte 4 ((height − i − 1) · width + j) + c of the input, for each channel c: the source's copy loop |
| Raster.FromToBytes | src/TargaImage.cpp:1251-1254 | reading the four bytes of each pixel back out of the flat buffer gives the pixels that were written |
| Raster.ToFromBytes | src/TargaImage.cpp:1251-1254 | a flat buffer whose length is a multiple of 4 is exactly the byte layout of its pixels |
| Raster.ReverseRows | src/TargaImage.cpp:1235-1261 | output row i is input row height − 1 − i, all four channels, same dimensions |
| Raster.ReversedInvolution | src/TargaImage.cpp:1235-1261 | reversing the rows twice gives back the original image |
| ColorReduction.ShiftMask | src/TargaImage.cpp:241-243 | `v >> k << k` on an unsigned char clears the k low bits: it is v − v mod 2^k |
| ColorReduction.QuantUniformMasks | src/TargaImage.cpp:231-247 | a quantised pixel is (R − R mod 32, G − G mod 32, B − B mod 64) with alpha kept: 3, 3 and 2 bits survive |
| ColorReduction.QuantUniform | src/TargaImage.cpp:231-247 | every pixel is uniformly quantised; the dimensions are kept |
| ColorReduction.QuantUniformIdempotent | src/TargaImage.cpp:231-247 | quantising an already quantised pixel changes nothing |
| ColorReduction.QuantUniformWhite | src/TargaImage.cpp:231-247 | white becomes (224, 224, 192) |
| ColorReduction.QuantUniformAtMost256Colours | src/TargaImage.cpp:233 | the 3-3-2 bit split gives an index in [0, 256) that is equal for two quantised pixels iff their colours are equal: at most 256 colours |
| ColorReduction.ToGrayscale | src/TargaImage.cpp:213-222 | R becomes lum(R, G, B), G and B copy it, alpha is kept |
| ColorReduction.GrayscaleIdempotent | src/TargaImage.cpp:213-222 | if the luminance maps every gray (v, v, v) to v, converting twice is converting once; the source's `double` formula does not meet this hypothesis (see Findings) |
| ColorReduction.GrayscaleNotIdempotentAsWritten | src/TargaImage.cpp:217 | with the source's truncation of (2, 2, 2) to 1 and of (1, 1, 1) to 0, a second conversion changes the gray (1, 1, 1) to (0, 0, 0) |
| ColorReduction.ExactGrayscaleIdempotent | src/TargaImage.cpp:217 | with the exact weights 299/1000, 587/1000 and 114/1000, every gray keeps its value and converting twice is converting once |
| Dither.AboveHalf | src/TargaImage.cpp:345-346 | the intensity v / 256 exceeds 1/2 iff v > 128 |
| Dither.DitherThreshold | src/TargaImage.cpp:339-361 | a pixel is white iff its luminance exceeds 128, black otherwise, alpha kept |
| Dither.Offset | src/TargaImage.cpp:376 | the random offset lies in [−51, 51] |
| Dither.OffsetOnto | src/TargaImage.cpp:376 | every offset in [−51, 51] is produced, by exactly one generator value below 103 |
| Dither.JitterThenThreshold | src/TargaImage.cpp:376-409 | clamping at 0 and 255 does not change the outcome: a gray v jittered by off ends up white iff v + off > 128 |
| Dither.DitherRandom | src/TargaImage.cpp:370-414 | pixel k is white iff luminance + offset of the k-th draw exceeds 128, alpha kept |
| Dither.ClusterLevelExact | src/TargaImage.cpp:555-572 | comparing v / 256 with a matrix decimal is comparing v with the level floor(256 t) |
| Dither.DitherCluster | src/TargaImage.cpp:553-588 | pixel (i, j) is white iff its luminance exceeds the level at [j mod 4][i mod 4], alpha kept |
| Dither.ClusterPeriodic | src/TargaImage.cpp:572 | equal grays at positions congruent mod 4 in both coordinates come out the same |
| FloydSteinberg.Dist | src/TargaImage.cpp:426-429 | the distance is non-negative and zero iff the values are equal |
| FloydSteinberg.ClosestInFirst | src/TargaImage.cpp:423-436 | the scan of the first n entries finds the first entry at minimum distance |
| FloydSteinberg.FirstClosestUnique | src/TargaImage.cpp:429-433 | the first closest entry is unique: a strict `<` keeps the earliest of equally close entries |
| FloydSteinberg.FindClosestPaletteColor | src/TargaImage.cpp:423-436 | returns the palette entry with the least distance, the first one on a tie |
| FloydSteinberg.BlackWhiteChoice | src/TargaImage.cpp:440-454 | on the palette {0, 1}, x becomes 1 iff x > 1/2 (1/2 itself goes to 0) |
| FloydSteinberg.FsStepEffect | src/TargaImage.cpp:452-472 | pixel (i, j) becomes the palette value closest to its current intensity; all earlier pixels are unchanged |
| FloydSteinberg.StepInPlace | src/TargaImage.cpp:452-472 | the in-place array update performs exactly one diffusion step |
| FloydSteinberg.Diffuse | src/TargaImage.cpp:448-474 | the row-major double loop leaves the buffer in the state after every step |
| FloydSteinberg.QuantisedWhenReached | src/TargaImage.cpp:452-455 | right after the scan reaches pixel (a, b) it holds the palette value closest to its intensity at that moment |
| FloydSteinberg.Settled | src/TargaImage.cpp:448-474 | once the scan has passed pixel (a, b), no later step changes it |
| FloydSteinberg.FinalValue | src/TargaImage.cpp:448-474 | at the end of the scan each pixel holds 1 iff its intensity when reached exceeded 1/2, else 0 |
| FloydSteinberg.SpreadConserves | src/TargaImage.cpp:456-472 | the weights 7/16, 3/16, 5/16, 1/16 sum to 1: spreading the error keeps the total intensity |
| FloydSteinberg.LostWeight | src/TargaImage.cpp:456-472 | the share of the error whose neighbour is off the image lies in [0, 1] and is 0 exactly when all four neighbours exist |
| FloydSteinberg.SpreadAccount | src/TargaImage.cpp:456-472 | whichever neighbours exist, spreading changes the total intensity by exactly minus the lost share of the error |
| FloydSteinberg.StepAccount | src/TargaImage.cpp:452-472 | every step, at any pixel including the edges, lowers the total intensity by exactly the error its missing neighbours would have received |
| FloydSteinberg.InteriorStepConserves | src/TargaImage.cpp:452-472 | for a pixel with all four neighbours on the image, a step conserves the sum of all intensities |
| FloydSteinberg.SumBefore | src/TargaImage.cpp:448-474 | at every point of the scan, and so for the whole image, the total intensity differs from the start only by the error lost off the edges so far |
| FloydSteinberg.DitherFS | src/TargaImage.cpp:437-493 | pixel (i, j) is white iff its diffused intensity when the scan reaches it exceeds 1/2, alpha kept |
| Populosity.PreQuantiseMultipleOf8 | src/TargaImage.cpp:267-277 | pre-quantisation clears the 3 low bits of R, G and B and keeps alpha |
| Populosity.BuildHistogram | src/TargaImage.cpp:289-296 | the map holds exactly the colours that occur, each with its number of occurrences |
| Populosity.HistogramSize | src/TargaImage.cpp:289-296 | the histogram has one entry per distinct colour, and none only for an empty image |
| Populosity.HistogramEntries | src/TargaImage.cpp:298-303 | the entry list holds each (colour, count) of the map exactly once |
| Populosity.Insert | src/TargaImage.cpp:304 | inserting into a list sorted by descending count keeps it sorted and adds exactly that entry |
| Populosity.SortByCount | src/TargaImage.cpp:304 | the result is sorted by descending count and is a permutation of the input |
| Populosity.ListsHistogramPermutation | src/TargaImage.cpp:304 | any permutation of an entry list of a histogram is still an entry list of it |
| Populosity.PaletteAsWrittenOverrun | src/TargaImage.cpp:305-309 | the sorted histogram of a one-pixel image has 1 entry, fewer than the 256 the palette loop reads, so the as-written palette cannot be taken from it |
| Populosity.SortedPrefixPopular | src/TargaImage.cpp:304-309 | every palette colour occurs at least as often as any colour left out |
| Populosity.PaletteDistinct | src/TargaImage.cpp:305-309 | when no colour has two entries, the palette has no colour twice |
| Populosity.PaletteIsPopular | src/TargaImage.cpp:298-309 | the palette has min(256, distinct colours) pairwise distinct colours, all present in the image, none less frequent than a colour left out |
| Populosity.SqDistBelowBound | src/TargaImage.cpp:313 | every colour distance is below the initial bound 500, so the first palette colour is always accepted |
| Populosity.SqrtGap | src/TargaImage.cpp:316-318 | the square roots of two different squared colour distances differ by at least 1/884, many `float` spacings, so the source's float comparison orders distances exactly |
| Populosity.NearestColor | src/TargaImage.cpp:313-325 | returns the first palette colour at least distance |
| Populosity.PaletteColourKept | src/TargaImage.cpp:313-325 | a colour that is in the palette maps to itself |
| Populosity.MapToPalette | src/TargaImage.cpp:311-329 | each pixel gets the first nearest palette colour, alpha kept |
| Populosity.QuantPopulosity | src/TargaImage.cpp:263-331 | the palette is the min(256, n) most frequent pre-quantised colours, pairwise distinct; each pixel gets the first palette colour nearest its pre-quantised colour, alpha kept |
| Convolution.BoxRowCol | src/TargaImage.cpp:856-857 | row and column computed with C division from the byte offset of cell q |
| Convolution.NegativeTapNeverCounts | src/TargaImage.cpp:855-858 | a tap before the start of the buffer never passes the test |
| Convolution.WrappedRowCol | src/TargaImage.cpp:856-857 | a tap that runs off a side edge wraps into the neighbouring row, at the opposite side |
| Convolution.TapCountsIff | src/TargaImage.cpp:855-858 | the test on the byte offset accepts a tap iff its unwrapped row and column are interior (at least N/2 from every edge) |
| Convolution.SourceTapInside | src/TargaImage.cpp:855-862 | every accepted tap reads inside the buffer, at its unwrapped position |
| Convolution.WindowAgrees | src/TargaImage.cpp:849-865 | the source's window sum over byte offsets equals the sum over the interior pixels of the window |
| Convolution.NormalizeRounds | src/TargaImage.cpp:867-868 | adding 1/2 and truncating rounds sum / div to the nearest integer, halves up |
| Convolution.NormalizeNoWrap | src/TargaImage.cpp:867-881 | a sum of at most 255 per unit of divisor gives a value ≤ 255: nothing wraps |
| Convolution.NormalizeUniform | src/TargaImage.cpp:867-870 | v times the divisor normalises back to v |
| Convolution.Convolve | src/TargaImage.cpp:840-885 | every output pixel is the normalised interior window sum of the snapshot; alpha is kept |
| Convolution.FixedKernelSums | src/TargaImage.cpp:886-936 | box, Bartlett and Gaussian weights sum to their divisors 25, 81, 256; the edge weights sum to 0 |
| Convolution.SmoothingKeepsFlat | src/TargaImage.cpp:840-885 | with divisor = weight sum, a pixel whose whole window is interior and of one colour is unchanged |
| Convolution.HighPassBlackensFlat | src/TargaImage.cpp:1026-1036 | with weights summing to 0, such a pixel becomes black |
| Convolution.FilterBox | src/TargaImage.cpp:886-896 | the 5 × 5 all-ones filter over 25; flat interior regions unchanged |
| Convolution.FilterBartlett | src/TargaImage.cpp:905-915 | the 5 × 5 tent filter over 81; flat interior regions unchanged |
| Convolution.FilterGaussian | src/TargaImage.cpp:924-934 | the 5 × 5 binomial filter over 256; flat interior regions unchanged |
| Convolution.FilterEdge | src/TargaImage.cpp:1026-1036 | the 5 × 5 high-pass filter over 256; flat interior regions become black |
| Convolution.RingKernel | src/TargaImage.cpp:950-962 | the N × N kernel has weight 1 on the outer ring, N − 1 on the second ring, (N − 1)² inside, and a weight sum of at least N² |
| Convolution.RingWeightShape | src/TargaImage.cpp:950-962 | every weight is at least 1, and the kernel is symmetric under transposition and both reflections |
| Convolution.RingKernelPositive | src/TargaImage.cpp:963-969 | the N × N divisor is positive for N ≥ 1 |
| Convolution.KernelDivisor | src/TargaImage.cpp:963-969 | the double loop sums all the weights |
| Convolution.FilterGaussianN | src/TargaImage.cpp:943-1017 | the N × N filter with divisor = weight sum; flat interior regions unchanged |
| Convolution.GaussianNTestOverreaches | src/TargaImage.cpp:982-985 | on a 5 × 1 image with N = 5, the unsigned test accepts a tap two rows below the image |
| Convolution.GaussianNTestAgrees | src/TargaImage.cpp:982-985 | when N/2 is at most the width and the height, the unsigned test is the signed one |
| Resample.HalfKernelSum | src/TargaImage.cpp:1142-1145 | the 1-2-1 weights sum to the divisor 16 |
| Resample.HalfSize | src/TargaImage.cpp:1086-1150 | the output is (width / 2) × (height / 2); pixel (i, j) is the normalised 1-2-1 sum over the on-image neighbours of input (2i, 2j), alpha 255 |
| Resample.OffImageRow | src/TargaImage.cpp:1106-1108 | a window row above the image contributes nothing |
| Resample.HalfSizeKeepsFlat | src/TargaImage.cpp:1093-1133 | away from the top and left edges, a flat neighbourhood is reproduced, with alpha 255 |
| Resample.HalfSizeTopEdge | src/TargaImage.cpp:1101-1128 | on the top row, away from the left corner, a flat value v sums to 12 v and comes out as round(3 v / 4): the edge darkens |
| Resample.HalfSizeTopLeftCorner | src/TargaImage.cpp:1101-1128 | at the top-left output both the row above and the column to the left are dropped: a flat value v sums to 9 v and comes out as round(9 v / 16) |
| Strokes.Blend | src/TargaImage.cpp:1296-1303 | each blended channel lies between the old value and the stroke's |
| Strokes.StrokeGeometry | src/TargaImage.cpp:1282-1304 | squared distance ≤ r² gives the stroke colour; r² + 1 blends if r > 0 and is left as is if r = 0; farther pixels are unchanged |
| Strokes.ScanBoundaries | src/TargaImage.cpp:1283-1284 | the offset scan starts with nothing painted, passes from one x offset to the next, and ends with the whole stroke painted |
| Strokes.PaintStroke | src/TargaImage.cpp:1281-1308 | after the scan, every pixel of the image is what the stroke makes of its original value, and each pixel is reached at most once |

## Behaviour of the code worth knowing

- **Quant_Uniform.** It keeps 3, 3 and 2 bits by shifting right and left by 5, 5 and 6, so every channel rounds down. White becomes (224, 224, 192).
- **The 5 × 5 filters.** The interior test is made on each tap of the window.
  - A border pixel gets the partial sum of those window pixels that are interior, normalised by the full divisor.
  - The values of border pixels never enter any sum.
- **The N × N kernel.** Weight 1 lies on the whole outer ring. The second ring has N − 1, and everything inside has (N − 1)².

## Findings

| source | as written | input that shows it | evidently intended | confidence | as-written member | corrected member |
|---|---|---|---|---|---|---|
| src/TargaImage.cpp:305-309 | the palette loop reads `unordered_histogram[i]` for i < 256, whatever the number of distinct colours | a one-pixel image: its histogram has 1 entry, and entries 1 .. 255 are read past the end | take the min(256, n) most popular colours | not executed | Populosity.PaletteAsWrittenOverrun | Populosity.PaletteIsPopular |
| src/TargaImage.cpp:217 | the gray is `R * 0.299 + G * 0.587 + B * 0.114` in `double`, truncated to a byte; these weights add up to just below 1 | the gray (2, 2, 2) becomes (1, 1, 1), and converting again gives (0, 0, 0) | a gray keeps its value, so converting twice is converting once | not executed | ColorReduction.GrayscaleNotIdempotentAsWritten | ColorReduction.ExactGrayscaleIdempotent |
| src/TargaImage.cpp:982-985 | in Filter_Gaussian_N, `N / 2` is unsigned, so `row < height - (N / 2)` and the other comparisons are made in unsigned arithmetic, and `height - N / 2` wraps when N / 2 > height | a 5 × 1 image with N = 5: tap (4, 2) of the middle pixel has byte offset 48 in a 20-byte buffer, and the test accepts it | the signed interior test of Filter, under which every accepted tap lies on the image | not executed | Convolution.GaussianNTestOverreaches | Convolution.SourceTapInside |

The luminance stays a parameter, so the grayscale and dithering contracts hold for either formula; `ColorReduction.ExactLuminance` is the one that meets the hypothesis of `ColorReduction.GrayscaleIdempotent`. The corrected model uses the first min(256, n) sorted entries (`Populosity.Palette`). It applies the signed test (`Convolution.TapCounts`) in the N × N filter as in the 5 × 5 ones. `Convolution.GaussianNTestAgrees` shows that the two tests coincide whenever N / 2 is at most the width and the height.

## Left out

- Load_Image, Save_Image, the constructors and the destructor are left out: they are file and memory plumbing.
- Dither_Bright and Dither_Color are outside this model's scope, and so are Filter_Enhance, the Comp_* operations, Difference, Double_Size, Resize, Rotate, NPR_Paint, RGBA_To_RGB and Binomial.
- Floating point is not modelled. The luminance is a parameter, FS intensities are exact reals, and the filter division is exact.
- Raster.ReverseRows: the source returns NULL when `data` is NULL, as in a default-constructed 0 × 0 image. The model has no null buffer and returns the empty image.
- Populosity.SortByCount: the source's `std::sort` is not stable. The model fixes one order among equal counts, and its contracts speak only of what every such order shares.
- Convolution.Convolve: integer overflow of `int` offsets and of `box_pos` on images of more than 2^31 bytes is not modelled.
- Convolution.FilterGaussianN: the model uses the signed window test, so the unsigned comparison is not reproduced there (see Findings). It also does not model the float rounding of large N × N divisors.
- Strokes.PaintStroke: the Stroke class declaration is not part of this model. Its radius and centre are taken as non-negative integers, as the `(int)` casts in the source suggest.
- Dither.DitherRandom: the generator itself is left out. Its k-th result is an input.
- The order of the source's loops (flat byte loop versus row and column loops) is not observable: every output pixel depends only on the snapshot, so it is modelled as a map over positions. Paint_Stroke and Floyd–Steinberg are the exceptions: their order matters, and the model follows it.

=== FILE: color_reduction.dfy ===
/** Colour reduction: grayscale conversion and uniform quantisation. Both rewrite
    each pixel from its own old value only; alpha is never touched. */
module ColorReduction {
  import opened Raster

  /** The luminance of an (R, G, B) triple. The source computes
      `R*0.299 + G*0.587 + B*0.114` in double precision and truncates the sum
      into a byte; that rounding is not modelled, so the luminance is a parameter. */
  type Luminance = (byte, byte, byte) -> byte

  /** 2 to the power k. */
  function Pow2(k: nat): (p: nat)
    ensures p >= 1
  {
    if k == 0 then 1 else 2 * Pow2(k - 1)
  }

  /** `v >> k << k` on an unsigned char: the largest multiple of 2^k not above v. */
  function ShiftMask(v: byte, k: nat): (m: byte)
    requires k <= 8
    ensures m == v - v % Pow2(k)
  {
    var p := Pow2(k);
    DivMulBelow(v, p);
    v / p * p
  }

  lemma DivMulBelow(v: nat, p: nat)
    requires p >= 1
    ensures 0 <= v / p * p == v - v % p
  {
    assert v == v / p * p + v % p;
  }

  /** One pixel of uniform quantisation: of the 8 bits per channel, 3 of red,
      3 of green and 2 of blue are kept, so the shifts are 5, 5 and 6. */
  function QuantUniformPixel(p: Pixel): Pixel {
    Pixel(ShiftMask(p.r, 5), ShiftMask(p.g, 5), ShiftMask(p.b, 6), p.a)
  }

  lemma Pow2Values()
    ensures Pow2(3) == 8 && Pow2(5) == 32 && Pow2(6) == 64
  {
    assert Pow2(3) == 8;
    assert Pow2(5) == 32;
  }

  /** The shifts clear the low 5 bits of R and G and the low 6 bits of B. */
  lemma QuantUniformMasks(p: Pixel)
    ensures QuantUniformPixel(p) == Pixel(p.r - p.r % 32, p.g - p.g % 32, p.b - p.b % 64, p.a)
  {
    Pow2Values();
  }

  /** `q` is `p` with R and G rounded down to a multiple of 32, B to a multiple of 64. */
  predicate UniformlyQuantised(p: Pixel, q: Pixel) {
    && q.r == p.r - p.r % 32 && q.g == p.g - p.g % 32 && q.b == p.b - p.b % 64
    && q.a == p.a
  }

  /** Rewrites every pixel row by row with its top 3/3/2 bits of R/G/B. */
  method QuantUniform(img: Image) returns (out: Image)
    requires img.Valid()
    ensures out.Valid() && out.width == img.width && out.height == img.height
    ensures forall k | 0 <= k < |img.pixels| :: UniformlyQuantised(img.pixels[k], out.pixels[k])
  {
    out := MapRows(img, (i, j, p) => QuantUniformPixel(p));
    forall k | 0 <= k < |img.pixels|
      ensures UniformlyQuantised(img.pixels[k], out.pixels[k])
    {
      MappedFlat(img, (i, j, p) => QuantUniformPixel(p), k);
      QuantUniformMasks(img.pixels[k]);
    }
  }

  /** Quantising an already quantised pixel changes nothing. */
  lemma QuantUniformIdempotent(p: Pixel)
    ensures QuantUniformPixel(QuantUniformPixel(p)) == QuantUniformPixel(p)
  {
    QuantUniformMasks(p);
    QuantUniformMasks(QuantUniformPixel(p));
    RoundedDownStays(p.r, 32);
    RoundedDownStays(p.g, 32);
    RoundedDownStays(p.b, 64);
  }

  /** A value rounded down to a multiple of m is left alone by rounding again. */
  lemma RoundedDownStays(x: nat, m: nat)
    requires m > 0
    ensures (x - x % m) % m == 0
  {
    assert x - x % m == m * (x / m);
    MultipleMod(x / m, m);
  }

  lemma MultipleMod(k: nat, m: nat)
    requires m > 0
    ensures (m * k) % m == 0
  {
    DivModUnique(m * k, m, k, 0);
  }

  /** White becomes (224, 224, 192): the largest values with the low 5/5/6 bits clear. */
  lemma QuantUniformWhite(a: byte)
    ensures QuantUniformPixel(Gray(255, a)) == Pixel(224, 224, 192, a)
  {
    QuantUniformMasks(Gray(255, a));
  }

  /** A number in [0, 256) for each colour a uniformly quantised pixel can have. */
  function UniformPaletteIndex(p: Pixel): int {
    (p.r / 32) * 32 + (p.g / 32) * 4 + p.b / 64
  }

  lemma MixedRadixUnique(a: int, b: int, c: int, a': int, b': int, c': int)
    requires 0 <= a < 8 && 0 <= b < 8 && 0 <= c < 4
    requires 0 <= a' < 8 && 0 <= b' < 8 && 0 <= c' < 4
    ensures 0 <= 32 * a + 4 * b + c < 256
    ensures 32 * a + 4 * b + c == 32 * a' + 4 * b' + c' <==> a == a' && b == b' && c == c'
  {
  }

  /** At most 256 colours survive uniform quantisation: quantised colours are
      numbered within [0, 256), and two with the same number are the same colour. */
  lemma QuantUniformAtMost256Colours(p1: Pixel, p2: Pixel)
    ensures 0 <= UniformPaletteIndex(QuantUniformPixel(p1)) < 256
    ensures var q1, q2 := QuantUniformPixel(p1), QuantUniformPixel(p2);
      UniformPaletteIndex(q1) == UniformPaletteIndex(q2) <==>
      (q1.r == q2.r && q1.g == q2.g && q1.b == q2.b)
  {
    QuantisedDigits(p1);
    QuantisedDigits(p2);
    var q1, q2 := QuantUniformPixel(p1), QuantUniformPixel(p2);
    MixedRadixUnique(q1.r / 32, q1.g / 32, q1.b / 64, q2.r / 32, q2.g / 32, q2.b / 64);
  }

  /** A quantised channel is its digit times the step, and the digits are small. */
  lemma QuantisedDigits(p: Pixel)
    ensures var q := QuantUniformPixel(p);
      && q.r == (q.r / 32) * 32 && q.g == (q.g / 32) * 32 && q.b == (q.b / 64) * 64
      && q.r / 32 < 8 && q.g / 32 < 8 && q.b / 64 < 4
  {
    QuantUniformMasks(p);
  }

  // ---------------------------------------------------------------------------
  // Grayscale
  // ---------------------------------------------------------------------------

  /** The pixel after grayscale conversion: R = G = B = luminance of the old R, G, B. */
  function GrayOf(p: Pixel, lum: Luminance): Pixel {
    Gray(lum(p.r, p.g, p.b), p.a)
  }

  /** Writes the luminance into R, then copies R into G and B. All three old
      channels are read before R is overwritten. */
  method ToGrayscale(img: Image, lum: Luminance) returns (out: Image)
    requires img.Valid()
    ensures out.Valid() && out.width == img.width && out.height == img.height
    ensures forall k | 0 <= k < |img.pixels| ::
      var p, q := img.pixels[k], out.pixels[k];
      && q.r == lum(p.r, p.g, p.b) && q.g == q.r && q.b == q.r
      && q.a == p.a
  {
    var n := |img.pixels|;
    var data := new Pixel[n](k requires 0 <= k < n => img.pixels[k]);
    var i := 0;
    while i < n
      invariant 0 <= i <= n
      invariant forall k | 0 <= k < i :: data[k] == GrayOf(img.pixels[k], lum)
      invariant forall k | i <= k < n :: data[k] == img.pixels[k]
    {
      var p := data[i];
      data[i] := p.(r := lum(p.r, p.g, p.b));
      data[i] := data[i].(g := data[i].r);
      data[i] := data[i].(b := data[i].r);
      i := i + 1;
    }
    out := Image(img.width, img.height, data[..]);
  }

  /** Converting twice equals converting once, for any luminance that maps a
      gray (v, v, v) to v. */
  lemma GrayscaleIdempotent(p: Pixel, lum: Luminance)
    requires forall v: byte :: lum(v, v, v) == v
    ensures GrayOf(GrayOf(p, lum), lum) == GrayOf(p, lum)
  {
  }

  /** The source evaluates `R * 0.299 + G * 0.587 + B * 0.114` in double precision
      and truncates it. The three weights add up to just below 1 there, so the
      gray 1 comes out as 0 and the gray 2 as 1. Under any luminance that does
      this, converting the gray (2, 2, 2) a second time changes it again. */
  lemma GrayscaleNotIdempotentAsWritten(lum: Luminance, a: byte)
    requires lum(2, 2, 2) == 1 && lum(1, 1, 1) == 0
    ensures GrayOf(Gray(2, a), lum) == Gray(1, a)
    ensures GrayOf(GrayOf(Gray(2, a), lum), lum) == Gray(0, a)
    ensures GrayOf(GrayOf(Gray(2, a), lum), lum) != GrayOf(Gray(2, a), lum)
  {
  }

  /** The formula `0.299 R + 0.587 G + 0.114 B` in exact arithmetic, truncated:
      the weights are thousandths, so it is (299 R + 587 G + 114 B) / 1000. */
  function ExactLuminance(r: byte, g: byte, b: byte): (v: byte)
    ensures 1000 * v <= 299 * r + 587 * g + 114 * b < 1000 * v + 1000
    ensures r == g == b ==> v == r
  {
    (299 * r + 587 * g + 114 * b) / 1000
  }

  /** With the weights summing to exactly 1, a gray is its own luminance, and
      converting twice equals converting once. */
  lemma ExactGrayscaleIdempotent(p: Pixel)
    ensures forall v: byte :: ExactLuminance(v, v, v) == v
    ensures GrayOf(GrayOf(p, ExactLuminance), ExactLuminance) == GrayOf(p, ExactLuminance)
  {
    GrayscaleIdempotent(p, ExactLuminance);
  }
}

=== FILE: convolution.dfy ===
/** The N x N convolution shared by the box, Bartlett, Gaussian and edge filters
    (N = 5) and by the N x N Gaussian. Every output pixel's R, G, B is the
    normalised weighted sum of the taps of its window that fall on interior pixels
    of a snapshot of the input; alpha is never written. */
module Convolution {
  import opened Raster

  // ---------------------------------------------------------------------------
  // C integer division
  // ---------------------------------------------------------------------------

  /** `a / b` in C: the quotient truncated toward zero. */
  function CDiv(a: int, b: int): int
    requires b > 0
  {
    if a >= 0 then a / b else -((-a) / b)
  }

  /** `a % b` in C: the remainder takes the sign of `a`. */
  function CMod(a: int, b: int): int
    requires b > 0
  {
    a - b * CDiv(a, b)
  }

  // ---------------------------------------------------------------------------
  // Which taps count
  // ---------------------------------------------------------------------------

  /** The byte offset of tap (h, w) of the window of the pixel at position `pos`,
      with `half` = N / 2: `i + (h - half) * width * 4 + (w - half) * 4` for i = 4 * pos. */
  function BoxPos(pos: nat, width: nat, half: nat, h: nat, w: nat): int {
    4 * pos + (h - half) * width * 4 + (w - half) * 4
  }

  /** The test the source applies to a tap's byte offset: the row and column it
      computes from the offset with C division must both be at least `half` from
      the edges of the image. */
  predicate TapCounts(width: nat, height: nat, half: nat, boxPos: int)
    requires width > 0
  {
    var row := CDiv(boxPos, width * 4);
    var col := CDiv(CMod(boxPos, width * 4), 4);
    row >= half && row < height - half && col >= half && col < width - half
  }

  /** Row and column of the byte offset of pixel position q, with C division. */
  lemma BoxRowCol(q: int, width: nat)
    requires width > 0
    ensures CDiv(4 * q, width * 4) == if q >= 0 then q / width else -((-q) / width)
    ensures CDiv(CMod(4 * q, width * 4), 4) == if q >= 0 then q % width else -((-q) % width)
  {
    var a := if q >= 0 then q else -q;
    DivModUnique(4 * a, width * 4, a / width, 4 * (a % width));
    DivModUnique(4 * (a % width), 4, a % width, 0);
    if q < 0 {
      DivModUnique(-4 * (a % width), 4, -(a % width), 0);
      assert -(4 * (a % width)) / 4 == -(a % width);
    }
  }

  /** A position that is not a cell of a grid of `width` columns counts nowhere. */
  lemma NegativeTapNeverCounts(width: nat, height: nat, half: nat, q: int)
    requires width > 0 && q < 0
    ensures !TapCounts(width, height, half, 4 * q)
  {
    BoxRowCol(q, width);
    if (-q) / width == 0 {
      DivModUnique(-q, width, 0, -q);
    }
  }

  /** The row q / width and column q % width of a cell position, once the unwrapped
      column `col'` of a tap is known to be off the row by less than one row. */
  lemma WrappedRowCol(width: nat, row': int, col': int, half: nat)
    requires width > 2 * half && -(half as int) <= col' < width + half
    requires row' * width + col' >= 0
    ensures var q := row' * width + col';
      && (0 <= col' < width ==> q / width == row' && q % width == col')
      && (col' < 0 ==> q % width == col' + width)
      && (col' >= width ==> q % width == col' - width)
  {
    var q := row' * width + col';
    if 0 <= col' < width {
      DivModUnique(q, width, row', col');
    } else if col' < 0 {
      assert q == (row' - 1) * width + (col' + width);
      DivModUnique(q, width, row' - 1, col' + width);
    } else {
      assert q == (row' + 1) * width + (col' - width);
      DivModUnique(q, width, row' + 1, col' - width);
    }
  }

  /** The source's test on the byte offset accepts a tap exactly when the tap,
      taken at unwrapped row r + dr and column c + dc, is an interior pixel: a tap
      that runs off the left or right edge wraps into a neighbouring row, but then
      lands within `half` of the opposite edge, and is rejected there. */
  lemma TapCountsIff(width: nat, height: nat, half: nat, r: nat, c: nat, dr: int, dc: int)
    requires width > 0 && r < height && c < width
    requires -(half as int) <= dr <= half && -(half as int) <= dc <= half
    ensures var q := Idx(width, r, c) + dr * width + dc;
      && q == (r + dr) * width + (c + dc)
      && (TapCounts(width, height, half, 4 * q) <==>
          half <= r + dr < height - half && half <= c + dc < width - half)
  {
    var q := Idx(width, r, c) + dr * width + dc;
    var row', col' := r + dr, c + dc;
    assert q == row' * width + col';
    if q < 0 {
      NegativeTapNeverCounts(width, height, half, q);
    } else if width <= 2 * half {
      BoxRowCol(q, width);
    } else {
      BoxRowCol(q, width);
      WrappedRowCol(width, row', col', half);
    }
  }

  // ---------------------------------------------------------------------------
  // Kernels and window sums
  // ---------------------------------------------------------------------------

  /** An N x N matrix of integer weights; the source stores them as floats, but
      every weight it uses is a small integer. */
  type Kernel = seq<seq<int>>

  predicate KernelShape(kernel: Kernel, n: nat) {
    |kernel| == n && forall i | 0 <= i < n :: |kernel[i]| == n
  }

  /** The window tap (h, w) of the pixel at position `pos`, as the source computes
      it: the tap's byte offset is tested with C division, and only a tap that
      passes is read from the snapshot. */
  function SourceTap(img: Image, kernel: Kernel, n: nat, pos: nat, h: nat, w: nat, ch: nat): int
    requires img.Valid() && pos < |img.pixels| && KernelShape(kernel, n)
    requires h < n && w < n && ch < 3
  {
    var half := n / 2;
    IdxCover(img.width, img.height, pos);
    var box := BoxPos(pos, img.width, half, h, w);
    if TapCounts(img.width, img.height, half, box) then
      SourceTapInside(img, n, pos, h, w);
      kernel[h][w] * Channel(img.pixels[box / 4], ch)
    else 0
  }

  /** A tap that passes the test lies on the buffer, at its unwrapped row and column. */
  lemma SourceTapInside(img: Image, n: nat, pos: nat, h: nat, w: nat)
    requires img.Valid() && pos < |img.pixels| && h < n && w < n
    ensures img.width > 0
    ensures var half := n / 2;
      var box := BoxPos(pos, img.width, half, h, w);
      var r, c := pos / img.width, pos % img.width;
      && box == 4 * (Idx(img.width, r, c) + (h - half) * img.width + (w - half))
      && (TapCounts(img.width, img.height, half, box) <==>
          half <= r + h - half < img.height - half && half <= c + w - half < img.width - half)
      && (TapCounts(img.width, img.height, half, box) ==>
          0 <= box / 4 < |img.pixels| && box / 4 == Idx(img.width, r + h - half, c + w - half))
  {
    var width, height, half := img.width, img.height, n / 2;
    IdxCover(width, height, pos);
    var r, c := pos / width, pos % width;
    var dr, dc := h - half, w - half;
    var q := Idx(width, r, c) + dr * width + dc;
    assert BoxPos(pos, width, half, h, w) == 4 * q;
    TapCountsIff(width, height, half, r, c, dr, dc);
    if TapCounts(width, height, half, 4 * q) {
      IdxBounds(width, height, r + dr, c + dc);
    }
  }

  /** Sum of taps w = 0 .. m-1 of window row h, in the source's form. */
  function SourceRow(img: Image, kernel: Kernel, n: nat, pos: nat, h: nat, m: nat, ch: nat): int
    requires img.Valid() && pos < |img.pixels| && KernelShape(kernel, n)
    requires h < n && m <= n && ch < 3
  {
    if m == 0 then 0 else SourceRow(img, kernel, n, pos, h, m - 1, ch) + SourceTap(img, kernel, n, pos, h, m - 1, ch)
  }

  /** Sum of window rows h = 0 .. m-1, in the source's form. */
  function SourceWindow(img: Image, kernel: Kernel, n: nat, pos: nat, m: nat, ch: nat): int
    requires img.Valid() && pos < |img.pixels| && KernelShape(kernel, n)
    requires m <= n && ch < 3
  {
    if m == 0 then 0 else SourceWindow(img, kernel, n, pos, m - 1, ch) + SourceRow(img, kernel, n, pos, m - 1, n, ch)
  }

  /** Pixel (row, col) lies at least `half` away from every edge. */
  predicate Interior(img: Image, half: nat, row: int, col: int) {
    half <= row < img.height - half && half <= col < img.width - half
  }

  /** The reference tap: weight (h, w) times the pixel at (r + h - half, c + w - half)
      when that pixel is interior, and nothing otherwise. */
  function InteriorTap(img: Image, kernel: Kernel, n: nat, r: nat, c: nat, h: nat, w: nat, ch: nat): int
    requires img.Valid() && r < img.height && c < img.width && KernelShape(kernel, n)
    requires h < n && w < n && ch < 3
  {
    var half := n / 2;
    var row, col := r + h - half, c + w - half;
    if Interior(img, half, row, col) then kernel[h][w] * Channel(img.At(row, col), ch) else 0
  }

  function InteriorRow(img: Image, kernel: Kernel, n: nat, r: nat, c: nat, h: nat, m: nat, ch: nat): int
    requires img.Valid() && r < img.height && c < img.width && KernelShape(kernel, n)
    requires h < n && m <= n && ch < 3
  {
    if m == 0 then 0 else InteriorRow(img, kernel, n, r, c, h, m - 1, ch) + InteriorTap(img, kernel, n, r, c, h, m - 1, ch)
  }

  /** The weighted sum of the interior taps of the window of pixel (r, c). */
  function InteriorWindow(img: Image, kernel: Kernel, n: nat, r: nat, c: nat, m: nat, ch: nat): int
    requires img.Valid() && r < img.height && c < img.width && KernelShape(kernel, n)
    requires m <= n && ch < 3
  {
    if m == 0 then 0 else InteriorWindow(img, kernel, n, r, c, m - 1, ch) + InteriorRow(img, kernel, n, r, c, m - 1, n, ch)
  }

  lemma TapAgrees(img: Image, kernel: Kernel, n: nat, r: nat, c: nat, h: nat, w: nat, ch: nat)
    requires img.Valid() && r < img.height && c < img.width && KernelShape(kernel, n)
    requires h < n && w < n && ch < 3
    ensures Idx(img.width, r, c) < |img.pixels|
    ensures SourceTap(img, kernel, n, Idx(img.width, r, c), h, w, ch) == InteriorTap(img, kernel, n, r, c, h, w, ch)
  {
    IdxBounds(img.width, img.height, r, c);
    IdxDivMod(img.width, r, c);
    SourceTapInside(img, n, Idx(img.width, r, c), h, w);
  }

  lemma {:induction false} RowAgrees(img: Image, kernel: Kernel, n: nat, r: nat, c: nat, h: nat, m: nat, ch: nat)
    requires img.Valid() && r < img.height && c < img.width && KernelShape(kernel, n)
    requires h < n && m <= n && ch < 3
    ensures Idx(img.width, r, c) < |img.pixels|
    ensures SourceRow(img, kernel, n, Idx(img.width, r, c), h, m, ch) == InteriorRow(img, kernel, n, r, c, h, m, ch)
  {
    IdxBounds(img.width, img.height, r, c);
    if m > 0 {
      RowAgrees(img, kernel, n, r, c, h, m - 1, ch);
      TapAgrees(img, kernel, n, r, c, h, m - 1, ch);
    }
  }

  /** The source's window sum, with its C-division test on byte offsets, is the
      sum over the interior taps of the window. */
  lemma {:induction false} WindowAgrees(img: Image, kernel: Kernel, n: nat, r: nat, c: nat, m: nat, ch: nat)
    requires img.Valid() && r < img.height && c < img.width && KernelShape(kernel, n)
    requires m <= n && ch < 3
    ensures Idx(img.width, r, c) < |img.pixels|
    ensures SourceWindow(img, kernel, n, Idx(img.width, r, c), m, ch) == InteriorWindow(img, kernel, n, r, c, m, ch)
  {
    IdxBounds(img.width, img.height, r, c);
    if m > 0 {
      WindowAgrees(img, kernel, n, r, c, m - 1, ch);
      RowAgrees(img, kernel, n, r, c, m - 1, n, ch);
    }
  }

  // ---------------------------------------------------------------------------
  // Normalisation
  // ---------------------------------------------------------------------------

  /** `int(float(sum / div) + 0.5)` stored into an unsigned char when the sum is
      positive, and 0 otherwise. */
  function Normalize(sum: int, div: int): byte
    requires sum > 0 ==> div > 0
  {
    if sum > 0 then ToByte(((sum as real) / (div as real) + 0.5).Floor) else 0
  }

  /** For a positive sum, adding one half and truncating is rounding to the nearest
      integer, halves up: (2 * sum + div) / (2 * div) in integers. */
  lemma NormalizeRounds(sum: int, div: int)
    requires sum > 0 && div > 0
    ensures ((sum as real) / (div as real) + 0.5).Floor == (2 * sum + div) / (2 * div)
  {
    var d, d2 := div as real, (2 * div) as real;
    var x, y := (sum as real) / d + 0.5, ((2 * sum + div) as real) / d2;
    assert x * d2 == (2 * sum + div) as real by {
      assert (sum as real) / d * d == sum as real;
    }
    assert y * d2 == (2 * sum + div) as real;
    RealMulMonotone(x, y, d2);
    RealMulMonotone(y, x, d2);
    FloorDiv(2 * sum + div, 2 * div);
  }

  /** Truncating a real quotient of integers is integer division, for a positive divisor. */
  lemma FloorDiv(a: int, b: int)
    requires b > 0
    ensures ((a as real) / (b as real)).Floor == a / b
  {
    var q, r := a / b, a % b;
    var x, d := (a as real) / (b as real), b as real;
    assert a == q * b + r && 0 <= r < b;
    assert (q * b) as real == (q as real) * d;
    assert ((q + 1) * b) as real == (q as real + 1.0) * d;
    assert x * d == a as real;
    RealMulMonotone(q as real, x, d);
    RealMulMonotone(x, q as real + 1.0, d);
    FloorUnique(x, q);
  }

  lemma FloorUnique(x: real, q: int)
    requires q as real <= x < q as real + 1.0
    ensures x.Floor == q
  {
  }

  lemma RealMulMonotone(a: real, b: real, d: real)
    requires d > 0.0
    ensures a * d <= b * d ==> a <= b
    ensures a * d < b * d ==> a < b
  {
  }

  /** A sum of at most 255 per unit of divisor normalises to its rounded quotient,
      which fits in a byte: no wrap-around happens. */
  lemma NormalizeNoWrap(sum: int, div: int)
    requires sum > 0 && div > 0 && sum <= 255 * div
    ensures Normalize(sum, div) == (2 * sum + div) / (2 * div) <= 255
  {
    NormalizeRounds(sum, div);
    DivBelow(2 * sum + div, 2 * div, 256);
  }

  /** n / d < k when n < k * d. */
  lemma DivBelow(n: int, d: int, k: int)
    requires d > 0 && 0 <= n < k * d
    ensures n / d < k
  {
    if n / d >= k {
      MulMonoInt(k, n / d, d);
    }
  }

  lemma MulMonoInt(a: int, b: int, d: int)
    requires a <= b && d >= 0
    ensures a * d <= b * d
  {
  }

  /** A uniform value v summed with weights totalling `div` gives back v. */
  lemma NormalizeUniform(v: byte, div: int)
    requires div > 0
    ensures Normalize(v * div, div) == v
  {
    if v > 0 {
      assert v * div > 0;
      NormalizeRounds(v * div, div);
      assert 2 * (v * div) + div == v * (2 * div) + div;
      DivModUnique(2 * (v * div) + div, 2 * div, v, div);
    }
  }

  // ---------------------------------------------------------------------------
  // The filter pass
  // ---------------------------------------------------------------------------

  /** The new value of the pixel at buffer position `pos`, as the source computes
      it: each colour channel is the normalised window sum read from the snapshot,
      and alpha is not written. */
  function FilterPixel(img: Image, kernel: Kernel, n: nat, div: int, pos: nat): Pixel
    requires img.Valid() && pos < |img.pixels| && KernelShape(kernel, n) && (n > 0 ==> div > 0)
  {
    img.pixels[pos].(
      r := Normalize(SourceWindow(img, kernel, n, pos, n, 0), div),
      g := Normalize(SourceWindow(img, kernel, n, pos, n, 1), div),
      b := Normalize(SourceWindow(img, kernel, n, pos, n, 2), div))
  }

  /** The reference result at (r, c): each colour channel is the normalised sum of
      the kernel weights times the interior pixels under the window centred on
      (r, c); alpha is that of the input pixel. */
  function Filtered(img: Image, kernel: Kernel, n: nat, div: int, r: nat, c: nat): Pixel
    requires img.Valid() && r < img.height && c < img.width
    requires KernelShape(kernel, n) && (n > 0 ==> div > 0)
  {
    img.At(r, c).(
      r := Normalize(InteriorWindow(img, kernel, n, r, c, n, 0), div),
      g := Normalize(InteriorWindow(img, kernel, n, r, c, n, 1), div),
      b := Normalize(InteriorWindow(img, kernel, n, r, c, n, 2), div))
  }

  /** One filter pass over the whole buffer. Every output pixel depends only on
      the input snapshot, and equals the reference result at its row and column. */
  method Convolve(img: Image, kernel: Kernel, n: nat, div: int) returns (out: Image)
    requires img.Valid() && KernelShape(kernel, n) && (n > 0 ==> div > 0)
    ensures out.Valid() && out.width == img.width && out.height == img.height
    ensures forall r, c | 0 <= r < img.height && 0 <= c < img.width ::
      out.At(r, c) == Filtered(img, kernel, n, div, r, c)
  {
    out := MapEach(img, (k: nat, p: Pixel) =>
      if k < |img.pixels| then FilterPixel(img, kernel, n, div, k) else p);
    forall r, c | 0 <= r < img.height && 0 <= c < img.width
      ensures out.At(r, c) == Filtered(img, kernel, n, div, r, c)
    {
      IdxBounds(img.width, img.height, r, c);
      WindowAgrees(img, kernel, n, r, c, n, 0);
      WindowAgrees(img, kernel, n, r, c, n, 1);
      WindowAgrees(img, kernel, n, r, c, n, 2);
    }
  }

  // ---------------------------------------------------------------------------
  // Kernel weights
  // ---------------------------------------------------------------------------

  function RowTotal(row: seq<int>, m: nat): int
    requires m <= |row|
  {
    if m == 0 then 0 else RowTotal(row, m - 1) + row[m - 1]
  }

  function RowsTotal(kernel: Kernel, n: nat, m: nat): int
    requires KernelShape(kernel, n) && m <= n
  {
    if m == 0 then 0 else RowsTotal(kernel, n, m - 1) + RowTotal(kernel[m - 1], n)
  }

  /** The sum of all weights of a kernel. */
  function WeightSum(kernel: Kernel, n: nat): int
    requires KernelShape(kernel, n)
  {
    RowsTotal(kernel, n, n)
  }

  const BoxKernel: Kernel := [
    [1, 1, 1, 1, 1],
    [1, 1, 1, 1, 1],
    [1, 1, 1, 1, 1],
    [1, 1, 1, 1, 1],
    [1, 1, 1, 1, 1]
  ]

  const BartlettKernel: Kernel := [
    [1, 2, 3, 2, 1],
    [2, 4, 6, 4, 2],
    [3, 6, 9, 6, 3],
    [2, 4, 6, 4, 2],
    [1, 2, 3, 2, 1]
  ]

  const GaussianKernel: Kernel := [
    [1,  4,  6,  4, 1],
    [4, 16, 24, 16, 4],
    [6, 24, 36, 24, 6],
    [4, 16, 24, 16, 4],
    [1,  4,  6,  4, 1]
  ]

  /** The high-pass kernel: the negated Gaussian with 220 at the centre. */
  const EdgeKernel: Kernel := [
    [-1,  -4,  -6,  -4, -1],
    [-4, -16, -24, -16, -4],
    [-6, -24, 220, -24, -6],
    [-4, -16, -24, -16, -4],
    [-1,  -4,  -6,  -4, -1]
  ]

  /** The divisors the fixed filters pass are the sums of their weights, except
      for the edge filter, whose weights sum to zero and whose divisor is 256. */
  lemma FixedKernelSums()
    ensures KernelShape(BoxKernel, 5) && WeightSum(BoxKernel, 5) == 25
    ensures KernelShape(BartlettKernel, 5) && WeightSum(BartlettKernel, 5) == 81
    ensures KernelShape(GaussianKernel, 5) && WeightSum(GaussianKernel, 5) == 256
    ensures KernelShape(EdgeKernel, 5) && WeightSum(EdgeKernel, 5) == 0
  {
  }

  // ---------------------------------------------------------------------------
  // Flat regions
  // ---------------------------------------------------------------------------

  /** The whole window of (r, c) lies in the interior. */
  predicate WindowInterior(img: Image, n: nat, r: nat, c: nat) {
    2 * (n / 2) <= r && r + n - 1 < img.height && 2 * (n / 2) <= c && c + n - 1 < img.width
  }

  /** Channel `ch` has the value v on every pixel of the window of (r, c). */
  predicate FlatWindow(img: Image, n: nat, r: nat, c: nat, ch: nat, v: byte)
    requires img.Valid() && ch < 3
  {
    forall i, j | r - n / 2 <= i < r - n / 2 + n && c - n / 2 <= j < c - n / 2 + n
      && 0 <= i < img.height && 0 <= j < img.width :: Channel(img.At(i, j), ch) == v
  }

  lemma {:induction false} FlatRow(img: Image, kernel: Kernel, n: nat, r: nat, c: nat, h: nat, m: nat, ch: nat, v: byte)
    requires img.Valid() && r < img.height && c < img.width && KernelShape(kernel, n)
    requires h < n && m <= n && ch < 3
    requires WindowInterior(img, n, r, c) && FlatWindow(img, n, r, c, ch, v)
    ensures InteriorRow(img, kernel, n, r, c, h, m, ch) == v * RowTotal(kernel[h], m)
  {
    if m > 0 {
      FlatRow(img, kernel, n, r, c, h, m - 1, ch, v);
      FlatTap(img, kernel, n, r, c, h, m - 1, ch, v);
      MulAdd(v, RowTotal(kernel[h], m - 1), kernel[h][m - 1]);
    }
  }

  /** Inside a flat window every tap contributes its weight times v. */
  lemma FlatTap(img: Image, kernel: Kernel, n: nat, r: nat, c: nat, h: nat, w: nat, ch: nat, v: byte)
    requires img.Valid() && r < img.height && c < img.width && KernelShape(kernel, n)
    requires h < n && w < n && ch < 3
    requires WindowInterior(img, n, r, c) && FlatWindow(img, n, r, c, ch, v)
    ensures InteriorTap(img, kernel, n, r, c, h, w, ch) == kernel[h][w] * v
  {
    var half := n / 2;
    assert Interior(img, half, r + h - half, c + w - half);
    assert Channel(img.At(r + h - half, c + w - half), ch) == v;
  }

  lemma MulAdd(v: int, x: int, k: int)
    ensures v * (x + k) == v * x + k * v
  {
  }

  lemma {:induction false} FlatRows(img: Image, kernel: Kernel, n: nat, r: nat, c: nat, m: nat, ch: nat, v: byte)
    requires img.Valid() && r < img.height && c < img.width && KernelShape(kernel, n)
    requires m <= n && ch < 3
    requires forall h | 0 <= h < m :: InteriorRow(img, kernel, n, r, c, h, n, ch) == v * RowTotal(kernel[h], n)
    ensures InteriorWindow(img, kernel, n, r, c, m, ch) == v * RowsTotal(kernel, n, m)
  {
    if m > 0 {
      FlatRows(img, kernel, n, r, c, m - 1, ch, v);
      MulAdd(v, RowsTotal(kernel, n, m - 1), RowTotal(kernel[m - 1], n));
    }
  }

  /** On a flat region away from the border, a kernel whose divisor is its weight
      sum leaves the channel unchanged, and a kernel whose weights sum to zero
      gives 0. */
  lemma FlatChannel(img: Image, kernel: Kernel, n: nat, div: int, r: nat, c: nat, ch: nat, v: byte)
    requires img.Valid() && r < img.height && c < img.width && KernelShape(kernel, n)
    requires n > 0 && div > 0 && ch < 3
    requires WindowInterior(img, n, r, c) && FlatWindow(img, n, r, c, ch, v)
    ensures WeightSum(kernel, n) == div ==> Normalize(InteriorWindow(img, kernel, n, r, c, n, ch), div) == v
    ensures WeightSum(kernel, n) == 0 ==> Normalize(InteriorWindow(img, kernel, n, r, c, n, ch), div) == 0
  {
    forall h | 0 <= h < n
      ensures InteriorRow(img, kernel, n, r, c, h, n, ch) == v * RowTotal(kernel[h], n)
    {
      FlatRow(img, kernel, n, r, c, h, n, ch, v);
    }
    FlatRows(img, kernel, n, r, c, n, ch, v);
    if WeightSum(kernel, n) == div {
      NormalizeUniform(v, div);
    }
  }

  /** The pixel (r, c) and its whole window have the same colour channels. */
  predicate FlatColour(img: Image, n: nat, r: nat, c: nat)
    requires img.Valid() && r < img.height && c < img.width
  {
    var p := img.At(r, c);
    FlatWindow(img, n, r, c, 0, p.r) && FlatWindow(img, n, r, c, 1, p.g) && FlatWindow(img, n, r, c, 2, p.b)
  }

  /** A smoothing filter (divisor = weight sum) leaves a flat interior region as it is. */
  lemma SmoothingKeepsFlat(img: Image, kernel: Kernel, n: nat, r: nat, c: nat)
    requires img.Valid() && r < img.height && c < img.width && KernelShape(kernel, n)
    requires n > 0 && WeightSum(kernel, n) > 0
    requires WindowInterior(img, n, r, c) && FlatColour(img, n, r, c)
    ensures Filtered(img, kernel, n, WeightSum(kernel, n), r, c) == img.At(r, c)
  {
    var p, div := img.At(r, c), WeightSum(kernel, n);
    FlatChannel(img, kernel, n, div, r, c, 0, p.r);
    FlatChannel(img, kernel, n, div, r, c, 1, p.g);
    FlatChannel(img, kernel, n, div, r, c, 2, p.b);
  }

  /** A high-pass filter (weights summing to zero) turns a flat interior region black. */
  lemma HighPassBlackensFlat(img: Image, kernel: Kernel, n: nat, div: int, r: nat, c: nat)
    requires img.Valid() && r < img.height && c < img.width && KernelShape(kernel, n)
    requires n > 0 && div > 0 && WeightSum(kernel, n) == 0
    requires WindowInterior(img, n, r, c) && FlatColour(img, n, r, c)
    ensures Filtered(img, kernel, n, div, r, c) == BlackOrWhite(false, img.At(r, c).a)
  {
    var p := img.At(r, c);
    FlatChannel(img, kernel, n, div, r, c, 0, p.r);
    FlatChannel(img, kernel, n, div, r, c, 1, p.g);
    FlatChannel(img, kernel, n, div, r, c, 2, p.b);
  }

  // ---------------------------------------------------------------------------
  // The N x N kernel
  // ---------------------------------------------------------------------------

  /** Weight (i, j) of the N x N kernel: 1 on the outer ring, N - 1 on the second
      ring, (N - 1)^2 inside. */
  function RingWeight(n: nat, i: int, j: int): int {
    if i == 0 || i == n - 1 || j == 0 || j == n - 1 then 1
    else if i == 1 || i == n - 2 || j == 1 || j == n - 2 then n - 1
    else (n - 1) * (n - 1)
  }

  function RingKernel(n: nat): (kernel: Kernel)
    ensures KernelShape(kernel, n)
    ensures forall i, j | 0 <= i < n && 0 <= j < n :: kernel[i][j] == RingWeight(n, i, j)
    ensures n > 0 ==> WeightSum(kernel, n) >= n * n >= 1
  {
    var kernel := seq(n, i => seq(n, j => RingWeight(n, i, j)));
    RingKernelPositive(kernel, n);
    kernel
  }

  /** Every weight of the N x N kernel is at least 1, and the kernel is symmetric
      under transposition and under both reflections. */
  lemma RingWeightShape(n: nat, i: nat, j: nat)
    requires i < n && j < n
    ensures RingWeight(n, i, j) >= 1
    ensures RingWeight(n, i, j) == RingWeight(n, j, i)
    ensures RingWeight(n, i, j) == RingWeight(n, n - 1 - i, j) == RingWeight(n, i, n - 1 - j)
  {
    if !(i == 0 || i == n - 1 || j == 0 || j == n - 1) && !(i == 1 || i == n - 2 || j == 1 || j == n - 2) {
      assert n - 1 >= 1;
      MulMonoInt(1, n - 1, n - 1);
    }
  }

  lemma {:induction false} RowTotalAtLeast(row: seq<int>, m: nat)
    requires m <= |row| && forall k | 0 <= k < |row| :: row[k] >= 1
    ensures RowTotal(row, m) >= m
  {
    if m > 0 {
      RowTotalAtLeast(row, m - 1);
    }
  }

  lemma {:induction false} RowsTotalAtLeast(kernel: Kernel, n: nat, m: nat)
    requires KernelShape(kernel, n) && m <= n
    requires forall i, j | 0 <= i < n && 0 <= j < n :: kernel[i][j] >= 1
    ensures RowsTotal(kernel, n, m) >= m * n
  {
    if m > 0 {
      RowsTotalAtLeast(kernel, n, m - 1);
      RowTotalAtLeast(kernel[m - 1], n);
    }
  }

  /** The divisor of the N x N filter is positive whenever N is. */
  lemma RingKernelPositive(kernel: Kernel, n: nat)
    requires KernelShape(kernel, n)
    requires forall i, j | 0 <= i < n && 0 <= j < n :: kernel[i][j] == RingWeight(n, i, j)
    ensures n > 0 ==> WeightSum(kernel, n) >= n * n >= 1
  {
    forall i, j | 0 <= i < n && 0 <= j < n
      ensures kernel[i][j] >= 1
    {
      RingWeightShape(n, i, j);
    }
    RowsTotalAtLeast(kernel, n, n);
    if n > 0 {
      MulMonoInt(1, n, n);
    }
  }

  /** Sums the weights of a kernel row by row, as the source computes the divisor
      of the N x N filter. */
  method KernelDivisor(kernel: Kernel, n: nat) returns (div: int)
    requires KernelShape(kernel, n)
    ensures div == WeightSum(kernel, n)
  {
    div := 0;
    var i := 0;
    while i < n
      invariant i <= n && div == RowsTotal(kernel, n, i)
    {
      var j := 0;
      while j < n
        invariant j <= n && div == RowsTotal(kernel, n, i) + RowTotal(kernel[i], j)
      {
        div := div + kernel[i][j];
        j := j + 1;
      }
      i := i + 1;
    }
  }

  // ---------------------------------------------------------------------------
  // The filters
  // ---------------------------------------------------------------------------

  method FilterBox(img: Image) returns (out: Image)
    requires img.Valid()
    ensures out.Valid() && out.width == img.width && out.height == img.height
    ensures forall r, c | 0 <= r < img.height && 0 <= c < img.width ::
      out.At(r, c) == Filtered(img, BoxKernel, 5, 25, r, c)
    ensures forall r, c | 0 <= r < img.height && 0 <= c < img.width
      && WindowInterior(img, 5, r, c) && FlatColour(img, 5, r, c) :: out.At(r, c) == img.At(r, c)
  {
    FixedKernelSums();
    out := Convolve(img, BoxKernel, 5, 25);
    forall r, c | 0 <= r < img.height && 0 <= c < img.width
      && WindowInterior(img, 5, r, c) && FlatColour(img, 5, r, c)
      ensures out.At(r, c) == img.At(r, c)
    {
      SmoothingKeepsFlat(img, BoxKernel, 5, r, c);
    }
  }

  method FilterBartlett(img: Image) returns (out: Image)
    requires img.Valid()
    ensures out.Valid() && out.width == img.width && out.height == img.height
    ensures forall r, c | 0 <= r < img.height && 0 <= c < img.width ::
      out.At(r, c) == Filtered(img, BartlettKernel, 5, 81, r, c)
    ensures forall r, c | 0 <= r < img.height && 0 <= c < img.width
      && WindowInterior(img, 5, r, c) && FlatColour(img, 5, r, c) :: out.At(r, c) == img.At(r, c)
  {
    FixedKernelSums();
    out := Convolve(img, BartlettKernel, 5, 81);
    forall r, c | 0 <= r < img.height && 0 <= c < img.width
      && WindowInterior(img, 5, r, c) && FlatColour(img, 5, r, c)
      ensures out.At(r, c) == img.At(r, c)
    {
      SmoothingKeepsFlat(img, BartlettKernel, 5, r, c);
    }
  }

  method FilterGaussian(img: Image) returns (out: Image)
    requires img.Valid()
    ensures out.Valid() && out.width == img.width && out.height == img.height
    ensures forall r, c | 0 <= r < img.height && 0 <= c < img.width ::
      out.At(r, c) == Filtered(img, GaussianKernel, 5, 256, r, c)
    ensures forall r, c | 0 <= r < img.height && 0 <= c < img.width
      && WindowInterior(img, 5, r, c) && FlatColour(img, 5, r, c) :: out.At(r, c) == img.At(r, c)
  {
    FixedKernelSums();
    out := Convolve(img, GaussianKernel, 5, 256);
    forall r, c | 0 <= r < img.height && 0 <= c < img.width
      && WindowInterior(img, 5, r, c) && FlatColour(img, 5, r, c)
      ensures out.At(r, c) == img.At(r, c)
    {
      SmoothingKeepsFlat(img, GaussianKernel, 5, r, c);
    }
  }

  method FilterEdge(img: Image) returns (out: Image)
    requires img.Valid()
    ensures out.Valid() && out.width == img.width && out.height == img.height
    ensures forall r, c | 0 <= r < img.height && 0 <= c < img.width ::
      out.At(r, c) == Filtered(img, EdgeKernel, 5, 256, r, c)
    ensures forall r, c | 0 <= r < img.height && 0 <= c < img.width
      && WindowInterior(img, 5, r, c) && FlatColour(img, 5, r, c) ::
      out.At(r, c) == BlackOrWhite(false, img.At(r, c).a)
  {
    FixedKernelSums();
    out := Convolve(img, EdgeKernel, 5, 256);
    forall r, c | 0 <= r < img.height && 0 <= c < img.width
      && WindowInterior(img, 5, r, c) && FlatColour(img, 5, r, c)
      ensures out.At(r, c) == BlackOrWhite(false, img.At(r, c).a)
    {
      HighPassBlackensFlat(img, EdgeKernel, 5, 256, r, c);
    }
  }

  /** The N x N filter, with its divisor summed from the weights. Its window test
      is the signed one of the 5 x 5 filters; see GaussianNTestAsWritten for the
      test the source performs. */
  method FilterGaussianN(img: Image, n: nat) returns (out: Image)
    requires img.Valid()
    ensures out.Valid() && out.width == img.width && out.height == img.height
    ensures forall r, c | 0 <= r < img.height && 0 <= c < img.width ::
      out.At(r, c) == Filtered(img, RingKernel(n), n, WeightSum(RingKernel(n), n), r, c)
    ensures forall r, c | 0 <= r < img.height && 0 <= c < img.width
      && n > 0 && WindowInterior(img, n, r, c) && FlatColour(img, n, r, c) :: out.At(r, c) == img.At(r, c)
  {
    var kernel := RingKernel(n);
    var div := KernelDivisor(kernel, n);
    out := Convolve(img, kernel, n, div);
    forall r, c | 0 <= r < img.height && 0 <= c < img.width
      && n > 0 && WindowInterior(img, n, r, c) && FlatColour(img, n, r, c)
      ensures out.At(r, c) == img.At(r, c)
    {
      SmoothingKeepsFlat(img, kernel, n, r, c);
    }
  }

  // ---------------------------------------------------------------------------
  // The window test of the N x N filter as written
  // ---------------------------------------------------------------------------

  const Two32: int := 0x1_0000_0000

  /** An int converted to a 32-bit unsigned int. */
  function U32(x: int): (u: int)
    ensures 0 <= u < Two32
  {
    x % Two32
  }

  /** The N x N filter's test: `N / 2` is unsigned, so each comparison is made
      between the operands converted to unsigned, and `height - N / 2` wraps
      when N / 2 exceeds the height. */
  predicate GaussianNTestAsWritten(width: int, height: int, half: nat, boxPos: int)
    requires width > 0
  {
    var row := CDiv(boxPos, width * 4);
    var col := CDiv(CMod(boxPos, width * 4), 4);
    U32(row) >= half && U32(row) < U32(height - half) && U32(col) >= half && U32(col) < U32(width - half)
  }

  /** On a 5 x 1 image with N = 5, the test as written accepts tap (4, 2) of the
      middle pixel, two rows below the image, at byte 48 of a 20-byte buffer;
      the signed test rejects it. */
  lemma GaussianNTestOverreaches()
    ensures BoxPos(2, 5, 2, 4, 2) == 48
    ensures GaussianNTestAsWritten(5, 1, 2, 48)
    ensures 48 / 4 >= 5 * 1
    ensures !TapCounts(5, 1, 2, 48)
  {
  }

  /** When N / 2 is at most the width and the height, the test as written is the
      signed test. */
  lemma GaussianNTestAgrees(width: int, height: int, half: nat, boxPos: int)
    requires 0 < width < 0x8000_0000 && 0 <= height < 0x8000_0000
    requires half <= width && half <= height
    requires -0x8000_0000 <= boxPos < 0x8000_0000
    ensures GaussianNTestAsWritten(width, height, half, boxPos) <==> TapCounts(width, height, half, boxPos)
  {
    var row := CDiv(boxPos, width * 4);
    var col := CDiv(CMod(boxPos, width * 4), 4);
    CDivBounds(boxPos, width);
    UnsignedAtLeast(row, half);
    UnsignedBelow(row, height - half);
    UnsignedAtLeast(col, half);
    UnsignedBelow(col, width - half);
  }

  /** Row and column of a 32-bit byte offset fit in 32 bits. */
  lemma CDivBounds(boxPos: int, width: int)
    requires 0 < width && -0x8000_0000 <= boxPos < 0x8000_0000
    ensures -0x8000_0000 <= CDiv(boxPos, width * 4) < 0x8000_0000
    ensures -width < CDiv(CMod(boxPos, width * 4), 4) < width
  {
    CDivRange(boxPos, width * 4);
    var m := CMod(boxPos, width * 4);
    CDivRange(m, 4);
    assert -4 * width < m < 4 * width;
  }

  /** C division truncates toward zero: the quotient lies between 0 and the
      dividend, and the remainder is smaller than the divisor and takes the
      sign of the dividend. */
  lemma CDivRange(a: int, b: int)
    requires b > 0
    ensures a >= 0 ==> 0 <= CDiv(a, b) <= a && 0 <= CMod(a, b) < b
    ensures a < 0 ==> a <= CDiv(a, b) <= 0 && -b < CMod(a, b) <= 0
  {
    if a >= 0 {
      NatDivRange(a, b);
    } else {
      NatDivRange(-a, b);
      assert CMod(a, b) == -((-a) % b);
    }
  }

  /** Euclidean division of a natural number. */
  lemma NatDivRange(n: int, b: int)
    requires n >= 0 && b > 0
    ensures 0 <= n / b <= n && 0 <= n % b < b && n == b * (n / b) + n % b
  {
    MulMonoInt(1, b, n / b);
  }

  /** Comparing a 32-bit int with a small unsigned value in unsigned arithmetic:
      a negative int becomes a huge value. */
  lemma UnsignedAtLeast(x: int, y: int)
    requires -0x8000_0000 <= x < 0x8000_0000 && 0 <= y < 0x8000_0000
    ensures U32(x) >= y <==> x >= y || x < 0
  {
  }

  lemma UnsignedBelow(x: int, y: int)
    requires -0x8000_0000 <= x < 0x8000_0000 && 0 <= y < 0x8000_0000
    ensures U32(x) < U32(y) <==> 0 <= x < y
  {
  }
}

=== FILE: dither.dfy ===
/** The binary dithers: threshold, random and clustered ordered dithering. Each
    converts the image to grayscale first and then makes every pixel pure black or
    pure white, comparing the intensity `gray / 256` against a threshold. Alpha is
    never written. */
module Dither {
  import opened Raster
  import opened ColorReduction

  /** The intensity in [0, 1) of a channel value: `v / 256` computed in floating point. */
  function Intensity(v: byte): real {
    v as real / 256.0
  }

  /** The luminance of a pixel's colour channels. */
  function LumOf(p: Pixel, lum: Luminance): byte {
    lum(p.r, p.g, p.b)
  }

  /** An intensity above one half is exactly a value above 128. */
  lemma AboveHalf(v: byte)
    ensures Intensity(v) > 0.5 <==> v > 128
  {
  }

  /** Sets R, G and B to 255 when `white` holds and to 0 otherwise; alpha is kept. */
  function Paint(p: Pixel, white: bool): Pixel {
    if white then p.(r := 255, g := 255, b := 255) else p.(r := 0, g := 0, b := 0)
  }

  /** Painting keeps only the alpha of the pixel it paints. */
  lemma PaintIsBlackOrWhite(p: Pixel, white: bool)
    ensures Paint(p, white) == BlackOrWhite(white, p.a)
  {
  }

  /** The threshold step on one grayscale pixel: white iff its intensity exceeds 1/2. */
  function ThresholdPixel(p: Pixel): Pixel {
    Paint(p, Intensity(p.r) > 0.5)
  }

  // ---------------------------------------------------------------------------
  // Threshold
  // ---------------------------------------------------------------------------

  /** Grayscale, then black or white at the fixed threshold 1/2. */
  method DitherThreshold(img: Image, lum: Luminance) returns (out: Image)
    requires img.Valid()
    ensures out.Valid() && out.width == img.width && out.height == img.height
    ensures forall k | 0 <= k < |img.pixels| ::
      out.pixels[k] == BlackOrWhite(LumOf(img.pixels[k], lum) > 128, img.pixels[k].a)
  {
    var gray := ToGrayscale(img, lum);
    out := MapEach(gray, (k, p) => ThresholdPixel(p));
    forall k | 0 <= k < |img.pixels|
      ensures out.pixels[k] == BlackOrWhite(LumOf(img.pixels[k], lum) > 128, img.pixels[k].a)
    {
      AboveHalf(gray.pixels[k].r);
      PaintIsBlackOrWhite(gray.pixels[k], gray.pixels[k].r > 128);
    }
  }

  // ---------------------------------------------------------------------------
  // Random
  // ---------------------------------------------------------------------------

  /** The offset drawn for one pixel from one value of the random generator. */
  function Offset(rnd: nat): (off: int)
    ensures -51 <= off <= 51
  {
    rnd % 103 - 51
  }

  /** Every offset in [-51, 51] is drawn by some generator value, and by exactly
      one value below 103. */
  lemma OffsetOnto(off: int)
    requires -51 <= off <= 51
    ensures Offset((off + 51) as nat) == off
    ensures forall rnd: nat | rnd < 103 && Offset(rnd) == off :: rnd == off + 51
  {
  }

  /** The first pass of random dithering on one pixel: add `off` to its channels,
      clamping at 0 and 255 according to the red channel. */
  function Jitter(p: Pixel, off: int): Pixel {
    if p.r + off < 0 then p.(r := 0, g := 0, b := 0)
    else if p.r + off > 255 then p.(r := 255, g := 255, b := 255)
    else p.(r := p.r + off, g := ToByte(p.g + off), b := ToByte(p.b + off))
  }

  /** Clamping does not change the outcome of the threshold: a gray value v jittered
      by `off` ends up white iff v + off > 128. */
  lemma JitterThenThreshold(p: Pixel, off: int)
    requires -51 <= off <= 51
    ensures ThresholdPixel(Jitter(p, off)) == BlackOrWhite(p.r + off > 128, p.a)
  {
    AboveHalf(Jitter(p, off).r);
  }

  /** Grayscale, add one random offset per pixel with clamping, then threshold at 1/2.
      The k-th call of the generator, `rands[k]`, belongs to pixel k. */
  method DitherRandom(img: Image, lum: Luminance, rands: seq<nat>) returns (out: Image)
    requires img.Valid() && |rands| == |img.pixels|
    ensures out.Valid() && out.width == img.width && out.height == img.height
    ensures forall k | 0 <= k < |img.pixels| ::
      out.pixels[k] ==
        BlackOrWhite(LumOf(img.pixels[k], lum) + Offset(rands[k]) > 128, img.pixels[k].a)
  {
    var gray := ToGrayscale(img, lum);
    var jittered := MapEach(gray, (k: nat, p: Pixel) => if k < |rands| then Jitter(p, Offset(rands[k])) else p);
    out := MapEach(jittered, (k, p) => ThresholdPixel(p));
    forall k | 0 <= k < |img.pixels|
      ensures out.pixels[k] ==
        BlackOrWhite(LumOf(img.pixels[k], lum) + Offset(rands[k]) > 128, img.pixels[k].a)
    {
      JitterThenThreshold(gray.pixels[k], Offset(rands[k]));
    }
  }

  // ---------------------------------------------------------------------------
  // Clustered ordered dither
  // ---------------------------------------------------------------------------

  /** The 4x4 threshold matrix, as the decimals written in the source. */
  const ClusterMatrix: seq<seq<real>> := [
    [0.7059, 0.3529, 0.5882, 0.2353],
    [0.0588, 0.9412, 0.8235, 0.4118],
    [0.4706, 0.7647, 0.8824, 0.1176],
    [0.1765, 0.5294, 0.2941, 0.6471]
  ]

  /** The same matrix as gray levels: entry (x, y) is the floor of 256 times the decimal. */
  const ClusterLevels: seq<seq<int>> := [
    [180,  90, 150,  60],
    [ 15, 240, 210, 105],
    [120, 195, 225,  30],
    [ 45, 135,  75, 165]
  ]

  /** No threshold times 256 is an integer, so comparing the intensity with a
      decimal threshold is comparing the gray value with its integer level. */
  lemma ClusterLevelExact(v: byte, x: nat, y: nat)
    requires x < 4 && y < 4
    ensures Intensity(v) > ClusterMatrix[x][y] <==> v > ClusterLevels[x][y]
  {
    var t, l := ClusterMatrix[x][y], ClusterLevels[x][y];
    assert l as real <= 256.0 * t < l as real + 1.0 by {
      if x == 0 { assert ClusterMatrix[0] == [0.7059, 0.3529, 0.5882, 0.2353]; }
      else if x == 1 { assert ClusterMatrix[1] == [0.0588, 0.9412, 0.8235, 0.4118]; }
      else if x == 2 { assert ClusterMatrix[2] == [0.4706, 0.7647, 0.8824, 0.1176]; }
      else { assert ClusterMatrix[3] == [0.1765, 0.5294, 0.2941, 0.6471]; }
    }
  }

  /** The cluster step on one grayscale pixel in row `row`, column `col`: the
      threshold is the matrix entry at [col mod 4][row mod 4]. */
  function ClusterPixel(row: nat, col: nat, p: Pixel): Pixel {
    Paint(p, Intensity(p.r) > ClusterMatrix[col % 4][row % 4])
  }

  /** Grayscale, then each pixel black or white against the cluster threshold of its
      position: the matrix is indexed by the column modulo 4 first, then the row. */
  method DitherCluster(img: Image, lum: Luminance) returns (out: Image)
    requires img.Valid()
    ensures out.Valid() && out.width == img.width && out.height == img.height
    ensures forall i, j | 0 <= i < img.height && 0 <= j < img.width ::
      out.At(i, j) ==
        BlackOrWhite(LumOf(img.At(i, j), lum) > ClusterLevels[j % 4][i % 4], img.At(i, j).a)
  {
    var gray := ToGrayscale(img, lum);
    out := MapRows(gray, ClusterPixel);
    forall i, j | 0 <= i < img.height && 0 <= j < img.width
      ensures out.At(i, j) ==
        BlackOrWhite(LumOf(img.At(i, j), lum) > ClusterLevels[j % 4][i % 4], img.At(i, j).a)
    {
      IdxBounds(img.width, img.height, i, j);
      ClusterLevelExact(gray.At(i, j).r, j % 4, i % 4);
    }
  }

  /** Two pixels of equal gray whose rows agree modulo 4 and whose columns agree
      modulo 4 come out the same: the pattern tiles the image with period 4. */
  lemma ClusterPeriodic(v: byte, a: byte, i: nat, j: nat, i': nat, j': nat)
    requires i % 4 == i' % 4 && j % 4 == j' % 4
    ensures ClusterPixel(i, j, Gray(v, a)) == ClusterPixel(i', j', Gray(v, a))
  {
  }
}

=== FILE: floyd_steinberg.dfy ===
/** Floyd–Steinberg dithering to black and white. Intensities are reals: the
    source works in single precision, and its weights 7/16, 3/16, 5/16 and 1/16 are
    exact binary fractions, so only the rounding of the sums is not modelled. */
module FloydSteinberg {
  import opened Raster
  import opened ColorReduction
  import opened Dither

  // ---------------------------------------------------------------------------
  // Closest palette colour
  // ---------------------------------------------------------------------------

  function Dist(x: real, y: real): (d: real)
    ensures d >= 0.0
    ensures d == 0.0 <==> x == y
  {
    if x >= y then x - y else y - x
  }

  /** `k` is the first index of `pal` whose colour is nearest to `x`: nothing in the
      palette is nearer, and every earlier entry is strictly farther. */
  ghost predicate FirstClosest(x: real, pal: seq<real>, k: nat) {
    && k < |pal|
    && (forall i | 0 <= i < |pal| :: Dist(x, pal[k]) <= Dist(x, pal[i]))
    && (forall i | 0 <= i < k :: Dist(x, pal[i]) > Dist(x, pal[k]))
  }

  /** At most one index is the first closest one. */
  lemma FirstClosestUnique(x: real, pal: seq<real>, k: nat, k': nat)
    requires FirstClosest(x, pal, k) && FirstClosest(x, pal, k')
    ensures k == k'
  {
    if k < k' {
      FirstClosestBefore(x, pal, k', k);
    } else if k' < k {
      FirstClosestBefore(x, pal, k, k');
    }
  }

  /** Every entry before the first closest one is strictly farther. */
  lemma FirstClosestBefore(x: real, pal: seq<real>, k: nat, i: nat)
    requires FirstClosest(x, pal, k) && i < k
    ensures Dist(x, pal[i]) > Dist(x, pal[k])
  {
  }

  /** The index the scan of the first `n` palette entries settles on: it starts at
      entry 0 and moves only to a strictly nearer entry. */
  function ClosestIn(x: real, pal: seq<real>, n: nat): (k: nat)
    requires 1 <= n <= |pal|
    ensures k < n
  {
    if n == 1 then 0
    else
      var k := ClosestIn(x, pal, n - 1);
      if Dist(x, pal[n - 1]) < Dist(x, pal[k]) then n - 1 else k
  }

  /** The scan of the first n entries settles on the first closest of them. */
  lemma {:induction false} ClosestInFirst(x: real, pal: seq<real>, n: nat)
    requires 1 <= n <= |pal|
    ensures FirstClosest(x, pal[..n], ClosestIn(x, pal, n))
  {
    if n > 1 {
      ClosestInFirst(x, pal, n - 1);
      var k := ClosestIn(x, pal, n - 1);
      assert forall i | 0 <= i < n - 1 :: pal[..n][i] == pal[..n - 1][i];
      if Dist(x, pal[n - 1]) < Dist(x, pal[k]) {
        assert ClosestIn(x, pal, n) == n - 1;
      } else {
        assert ClosestIn(x, pal, n) == k;
      }
    }
  }

  /** The colour returned for `x`: the first nearest palette entry. */
  function Closest(x: real, pal: seq<real>): real
    requires |pal| >= 1
  {
    pal[ClosestIn(x, pal, |pal|)]
  }

  /** The index found over the whole palette is its first closest entry. */
  lemma ClosestIsFirst(x: real, pal: seq<real>)
    requires |pal| >= 1
    ensures FirstClosest(x, pal, ClosestIn(x, pal, |pal|))
  {
    ClosestInFirst(x, pal, |pal|);
    assert pal[..|pal|] == pal;
  }

  /** One more entry of the palette moves the choice only when it is strictly nearer. */
  lemma ClosestInStep(x: real, pal: seq<real>, n: nat)
    requires 1 <= n < |pal|
    ensures ClosestIn(x, pal, n + 1) ==
      if Dist(x, pal[n]) < Dist(x, pal[ClosestIn(x, pal, n)]) then n else ClosestIn(x, pal, n)
  {
  }

  /** Scans the palette once, keeping the first entry at the least distance. */
  method FindClosestPaletteColor(x: real, pal: seq<real>) returns (c: real)
    requires |pal| >= 1
    ensures exists k: nat :: FirstClosest(x, pal, k) && c == pal[k]
    ensures c == Closest(x, pal)
  {
    var closest := pal[0];
    var closestDistance := Dist(x, pal[0]);
    ghost var k := 0;
    var i := 0;
    while i < |pal|
      invariant 0 <= i <= |pal|
      invariant k < |pal| && closest == pal[k] && closestDistance == Dist(x, pal[k])
      invariant k == 0 || k < i
      invariant i >= 1 ==> k == ClosestIn(x, pal, i)
    {
      ghost var before := k;
      var distance := Dist(x, pal[i]);
      if distance < closestDistance {
        closestDistance := distance;
        closest := pal[i];
        k := i;
      }
      if i >= 1 {
        ClosestInStep(x, pal, i);
      }
      i := i + 1;
    }
    ClosestIsFirst(x, pal);
    assert FirstClosest(x, pal, k) && closest == pal[k];
    c := closest;
  }

  /** The black and white palette. */
  const BlackWhite: seq<real> := [0.0, 1.0]

  /** With the palette {0, 1} the choice is 1 exactly above one half; one half
      itself is as near to 0 as to 1 and goes to the earlier entry, 0. */
  lemma BlackWhiteChoice(x: real)
    ensures Closest(x, BlackWhite) == if x > 0.5 then 1.0 else 0.0
  {
    assert BlackWhite[..1] == [0.0];
  }

  // ---------------------------------------------------------------------------
  // Error diffusion
  // ---------------------------------------------------------------------------

  /** For a pixel not in the last row, the whole next row lies inside the grid. */
  lemma NeighboursInBounds(w: nat, h: nat, i: nat, j: nat)
    requires i < h && j < w
    ensures Idx(w, i, j) < w * h
    ensures i + 1 < h ==> Idx(w, i, j) + w + (w - 1 - j) < w * h
  {
    IdxBounds(w, h, i, j);
    if i + 1 < h {
      IdxBounds(w, h, i + 1, w - 1);
    }
  }

  /** Writes `after` at buffer position p and adds the error `s[p] - after` to
      the neighbours that exist: 7/16 to the right (p + 1), 3/16 to the lower
      left (p + w - 1), 5/16 below (p + w) and 1/16 to the lower right (p + w + 1). */
  function Spread(s: seq<real>, p: nat, w: nat, right: bool, left: bool, below: bool, after: real): (t: seq<real>)
    requires p < |s|
    requires right ==> p + 1 < |s|
    requires below ==> w >= 1 && p + w < |s| && (right ==> p + w + 1 < |s|)
    requires below && left ==> w >= 2
    ensures |t| == |s| && t[p] == after
  {
    var err := s[p] - after;
    var s1 := s[p := after];
    var s2 := if right then s1[p + 1 := s1[p + 1] + 0.4375 * err] else s1;
    var s3 := if below && left then s2[p + w - 1 := s2[p + w - 1] + 0.1875 * err] else s2;
    var s4 := if below then s3[p + w := s3[p + w] + 0.3125 * err] else s3;
    if below && right then s4[p + w + 1 := s4[p + w + 1] + 0.0625 * err] else s4
  }

  /** The step writes only at position p and after it. */
  lemma SpreadFrame(s: seq<real>, p: nat, w: nat, right: bool, left: bool, below: bool, after: real)
    requires p < |s|
    requires right ==> p + 1 < |s|
    requires below ==> w >= 1 && p + w < |s| && (right ==> p + w + 1 < |s|)
    requires below && left ==> w >= 2
    ensures forall q | 0 <= q < p :: Spread(s, p, w, right, left, below, after)[q] == s[q]
  {
  }

  /** The step of pixel (i, j): the neighbour to the right exists when j + 1 < w,
      the one to the left when j >= 1, and the row below when i + 1 < h. */
  function FsStep(s: seq<real>, w: nat, h: nat, i: nat, j: nat): (t: seq<real>)
    requires |s| == w * h && i < h && j < w
    ensures |t| == |s|
  {
    NeighboursInBounds(w, h, i, j);
    Spread(s, Idx(w, i, j), w, j + 1 < w, j >= 1, i + 1 < h, Closest(s[Idx(w, i, j)], BlackWhite))
  }

  /** The step of pixel (i, j) gives it the palette value closest to its current
      intensity and leaves every earlier position unchanged. */
  lemma FsStepEffect(s: seq<real>, w: nat, h: nat, i: nat, j: nat)
    requires |s| == w * h && i < h && j < w
    ensures Idx(w, i, j) < |s|
    ensures FsStep(s, w, h, i, j)[Idx(w, i, j)] == Closest(s[Idx(w, i, j)], BlackWhite)
    ensures forall q | 0 <= q < Idx(w, i, j) :: FsStep(s, w, h, i, j)[q] == s[q]
  {
    NeighboursInBounds(w, h, i, j);
    SpreadFrame(s, Idx(w, i, j), w, j + 1 < w, j >= 1, i + 1 < h, Closest(s[Idx(w, i, j)], BlackWhite));
  }

  /** The intensities just before pixel (i, j) is reached by the row-major scan;
      (h, 0) stands for the end of the scan. */
  function Before(s: seq<real>, w: nat, h: nat, i: nat, j: nat): (t: seq<real>)
    requires |s| == w * h
    requires (i < h && j <= w) || (i == h && j == 0)
    ensures |t| == |s|
    decreases i, j
  {
    if j > 0 then FsStep(Before(s, w, h, i, j - 1), w, h, i, j - 1)
    else if i > 0 then Before(s, w, h, i - 1, w)
    else s
  }

  /** The intensity of pixel (i, j) at the moment the scan reaches it. */
  function ValueWhenReached(s: seq<real>, w: nat, h: nat, i: nat, j: nat): real
    requires |s| == w * h && i < h && j < w
  {
    IdxBounds(w, h, i, j);
    Before(s, w, h, i, j)[Idx(w, i, j)]
  }

  /** Row-major order on cells is the order of their buffer positions. */
  lemma IdxOrder(w: nat, a: nat, b: nat, i: nat, j: nat)
    requires b < w && (a < i || (a == i && b < j))
    ensures Idx(w, a, b) < Idx(w, i, j)
  {
    if a < i {
      MulMono(a + 1, i, w);
    }
  }

  /** Once pixel (a, b) has been quantised its value is final: every later step
      of the scan writes only to later positions. */
  lemma {:induction false} Settled(s: seq<real>, w: nat, h: nat, a: nat, b: nat, i: nat, j: nat)
    requires |s| == w * h && a < h && b < w && i < h && j <= w
    requires a < i || (a == i && b < j)
    ensures Idx(w, a, b) < |s|
    ensures Before(s, w, h, i, j)[Idx(w, a, b)] == Before(s, w, h, a, b + 1)[Idx(w, a, b)]
    decreases i, j
  {
    if j == 0 {
      Settled(s, w, h, a, b, i - 1, w);
    } else if a == i && b == j - 1 {
      IdxBounds(w, h, a, b);
    } else {
      Settled(s, w, h, a, b, i, j - 1);
      LaterStepKeeps(s, w, h, a, b, i, j - 1);
    }
  }

  /** Starting row i is where row i - 1 ended. */
  lemma RowStart(s: seq<real>, w: nat, h: nat, i: nat)
    requires |s| == w * h && 0 < i <= h
    ensures Before(s, w, h, i, 0) == Before(s, w, h, i - 1, w)
  {
  }

  /** The step of pixel (a, b) gives it its palette colour. */
  lemma QuantisedWhenReached(s: seq<real>, w: nat, h: nat, a: nat, b: nat)
    requires |s| == w * h && a < h && b < w
    ensures Idx(w, a, b) < |s|
    ensures Before(s, w, h, a, b + 1)[Idx(w, a, b)] ==
      Closest(Before(s, w, h, a, b)[Idx(w, a, b)], BlackWhite)
  {
    assert Before(s, w, h, a, b + 1) == FsStep(Before(s, w, h, a, b), w, h, a, b);
    FsStepEffect(Before(s, w, h, a, b), w, h, a, b);
  }

  /** The step of pixel (i, j) leaves the value of an earlier pixel (a, b) alone. */
  lemma LaterStepKeeps(s: seq<real>, w: nat, h: nat, a: nat, b: nat, i: nat, j: nat)
    requires |s| == w * h && i < h && j < w && b < w
    requires a < i || (a == i && b < j)
    ensures Idx(w, a, b) < |s|
    ensures Before(s, w, h, i, j + 1)[Idx(w, a, b)] == Before(s, w, h, i, j)[Idx(w, a, b)]
  {
    var t := Before(s, w, h, i, j);
    assert Before(s, w, h, i, j + 1) == FsStep(t, w, h, i, j);
    StepKeepsEarlier(t, w, h, a, b, i, j);
  }

  /** The step of pixel (i, j) leaves every earlier pixel as it was. */
  lemma StepKeepsEarlier(t: seq<real>, w: nat, h: nat, a: nat, b: nat, i: nat, j: nat)
    requires |t| == w * h && i < h && j < w && b < w
    requires a < i || (a == i && b < j)
    ensures Idx(w, a, b) < |t| && FsStep(t, w, h, i, j)[Idx(w, a, b)] == t[Idx(w, a, b)]
  {
    IdxOrder(w, a, b, i, j);
    IdxBounds(w, h, i, j);
    FsStepEffect(t, w, h, i, j);
  }

  /** The sum of the first n intensities. */
  function SumTo(s: seq<real>, n: nat): real
    requires n <= |s|
  {
    if n == 0 then 0.0 else SumTo(s, n - 1) + s[n - 1]
  }

  /** The sum of all intensities. */
  function Sum(s: seq<real>): real {
    SumTo(s, |s|)
  }

  /** Replacing entry q changes the sum of every prefix that contains it by the
      difference, and no other prefix. */
  lemma {:induction false} SumToUpdate(s: seq<real>, q: nat, v: real, n: nat)
    requires q < |s| && n <= |s|
    ensures SumTo(s[q := v], n) == SumTo(s, n) + (if q < n then v - s[q] else 0.0)
  {
    if n > 0 {
      SumToUpdate(s, q, v, n - 1);
    }
  }

  lemma SumUpdate(s: seq<real>, q: nat, v: real)
    requires q < |s|
    ensures Sum(s[q := v]) == Sum(s) - s[q] + v
  {
    SumToUpdate(s, q, v, |s|);
  }

  lemma SumAdd(s: seq<real>, q: nat, d: real)
    requires q < |s|
    ensures Sum(s[q := s[q] + d]) == Sum(s) + d
  {
    SumUpdate(s, q, s[q] + d);
  }

  /** With all four neighbours present, the weights 7/16 + 3/16 + 5/16 + 1/16 add
      up to 1: whatever value is written, the total intensity is unchanged. */
  lemma SpreadConserves(s: seq<real>, p: nat, w: nat, after: real)
    requires w >= 2 && p + w + 1 < |s|
    ensures Sum(Spread(s, p, w, true, true, true, after)) == Sum(s)
  {
    var err := s[p] - after;
    var s1 := s[p := after];
    var s2 := s1[p + 1 := s1[p + 1] + 0.4375 * err];
    var s3 := s2[p + w - 1 := s2[p + w - 1] + 0.1875 * err];
    var s4 := s3[p + w := s3[p + w] + 0.3125 * err];
    var s5 := s4[p + w + 1 := s4[p + w + 1] + 0.0625 * err];
    assert Spread(s, p, w, true, true, true, after) == s5;
    assert Sum(s1) == Sum(s) - err by { SumUpdate(s, p, after); }
    assert Sum(s2) == Sum(s1) + 0.4375 * err by { SumAdd(s1, p + 1, 0.4375 * err); }
    assert Sum(s3) == Sum(s2) + 0.1875 * err by { SumAdd(s2, p + w - 1, 0.1875 * err); }
    assert Sum(s4) == Sum(s3) + 0.3125 * err by { SumAdd(s3, p + w, 0.3125 * err); }
    assert Sum(s5) == Sum(s4) + 0.0625 * err by { SumAdd(s4, p + w + 1, 0.0625 * err); }
  }

  /** The share of a pixel's error that falls off the image: the weights of the
      neighbours that are missing. It is 0 exactly when all four are present. */
  function LostWeight(right: bool, left: bool, below: bool): (lost: real)
    ensures 0.0 <= lost <= 1.0
    ensures lost == 0.0 <==> right && left && below
  {
    (if right then 0.0 else 0.4375) + (if below && left then 0.0 else 0.1875)
    + (if below then 0.0 else 0.3125) + (if below && right then 0.0 else 0.0625)
  }

  /** Spreading the error changes the total intensity by exactly the share of the
      error that has no neighbour to go to, whichever neighbours exist. */
  lemma SpreadAccount(s: seq<real>, p: nat, w: nat, right: bool, left: bool, below: bool, after: real)
    requires p < |s|
    requires right ==> p + 1 < |s|
    requires below ==> w >= 1 && p + w < |s| && (right ==> p + w + 1 < |s|)
    requires below && left ==> w >= 2
    ensures Sum(Spread(s, p, w, right, left, below, after))
      == Sum(s) - LostWeight(right, left, below) * (s[p] - after)
  {
    SpreadSum(s, p, w, right, left, below, after, s[p] - after);
  }

  /** SpreadAccount with the error `err` named, so that the proof's arithmetic
      is about one variable. */
  lemma SpreadSum(s: seq<real>, p: nat, w: nat, right: bool, left: bool, below: bool, after: real, err: real)
    requires p < |s|
    requires right ==> p + 1 < |s|
    requires below ==> w >= 1 && p + w < |s| && (right ==> p + w + 1 < |s|)
    requires below && left ==> w >= 2
    requires err == s[p] - after
    ensures Sum(Spread(s, p, w, right, left, below, after)) == Sum(s) - LostWeight(right, left, below) * err
  {
    var s1 := s[p := after];
    var s2 := if right then s1[p + 1 := s1[p + 1] + 0.4375 * err] else s1;
    var s3 := if below && left then s2[p + w - 1 := s2[p + w - 1] + 0.1875 * err] else s2;
    var s4 := if below then s3[p + w := s3[p + w] + 0.3125 * err] else s3;
    var s5 := if below && right then s4[p + w + 1 := s4[p + w + 1] + 0.0625 * err] else s4;
    SpreadSteps(s, p, w, right, left, below, after, s1, s2, s3, s4, s5);
    SumUpdate(s, p, after);
    AddIf(s1, p + 1, right, 0.4375, err);
    AddIf(s2, p + w - 1, below && left, 0.1875, err);
    AddIf(s3, p + w, below, 0.3125, err);
    AddIf(s4, p + w + 1, below && right, 0.0625, err);
    SharesLeaveLost(right, left, below, err);
    Telescope(Sum(s), Sum(s1), Sum(s2), Sum(s3), Sum(s4), Sum(s5), err,
      Share(right, 0.4375, err), Share(below && left, 0.1875, err),
      Share(below, 0.3125, err), Share(below && right, 0.0625, err),
      LostWeight(right, left, below) * err);
  }

  /** The part `weight * err` of the error that reaches a neighbour, if it exists. */
  function Share(present: bool, weight: real, err: real): real {
    if present then weight * err else 0.0
  }

  /** The running total after each write of a step: the pixel loses its error,
      and the neighbours gain all of it but the lost part. */
  lemma Telescope(a0: real, a1: real, a2: real, a3: real, a4: real, a5: real, err: real,
                  d2: real, d3: real, d4: real, d5: real, lost: real)
    requires a1 == a0 - err && a2 == a1 + d2 && a3 == a2 + d3 && a4 == a3 + d4 && a5 == a4 + d5
    requires d2 + d3 + d4 + d5 == err - lost
    ensures a5 == a0 - lost
  {
  }

  /** Adding a neighbour's share changes the sum by that share, and by nothing
      when the neighbour is missing. */
  lemma AddIf(t: seq<real>, q: int, present: bool, weight: real, err: real)
    requires present ==> 0 <= q < |t|
    ensures Sum(if present then t[q := t[q] + weight * err] else t) == Sum(t) + Share(present, weight, err)
  {
    if present {
      SumAdd(t, q, weight * err);
    }
  }

  /** What the present neighbours receive is the whole error less the lost share. */
  lemma SharesLeaveLost(right: bool, left: bool, below: bool, err: real)
    ensures Share(right, 0.4375, err) + Share(below && left, 0.1875, err)
      + Share(below, 0.3125, err) + Share(below && right, 0.0625, err)
      == err - LostWeight(right, left, below) * err
  {
    var lost := LostWeight(right, left, below);
    assert lost * err == (if right then 0.0 else 0.4375 * err) + (if below && left then 0.0 else 0.1875 * err)
      + (if below then 0.0 else 0.3125 * err) + (if below && right then 0.0 else 0.0625 * err);
  }

  /** The error of the step at (i, j) that falls off the image. */
  function StepLoss(t: seq<real>, w: nat, h: nat, i: nat, j: nat): real
    requires |t| == w * h && i < h && j < w
  {
    IdxBounds(w, h, i, j);
    var x := t[Idx(w, i, j)];
    LostWeight(j + 1 < w, j >= 1, i + 1 < h) * (x - Closest(x, BlackWhite))
  }

  /** Every step, at any pixel, changes the total intensity by minus the error
      it loses off the right, left or bottom edge. */
  lemma StepAccount(s: seq<real>, w: nat, h: nat, i: nat, j: nat)
    requires |s| == w * h && i < h && j < w
    ensures Sum(FsStep(s, w, h, i, j)) == Sum(s) - StepLoss(s, w, h, i, j)
  {
    NeighboursInBounds(w, h, i, j);
    SpreadAccount(s, Idx(w, i, j), w, j + 1 < w, j >= 1, i + 1 < h, Closest(s[Idx(w, i, j)], BlackWhite));
  }

  /** At a pixel whose four neighbours all exist, the step moves the whole
      quantisation error into the neighbours: the total intensity is unchanged. */
  lemma InteriorStepConserves(s: seq<real>, w: nat, h: nat, i: nat, j: nat)
    requires |s| == w * h && i + 1 < h && 1 <= j && j + 1 < w
    ensures Sum(FsStep(s, w, h, i, j)) == Sum(s)
  {
    StepAccount(s, w, h, i, j);
  }

  /** The error lost off the image by all the steps before the scan reaches (i, j). */
  function LostBefore(s: seq<real>, w: nat, h: nat, i: nat, j: nat): real
    requires |s| == w * h
    requires (i < h && j <= w) || (i == h && j == 0)
    decreases i, j
  {
    if j > 0 then LostBefore(s, w, h, i, j - 1) + StepLoss(Before(s, w, h, i, j - 1), w, h, i, j - 1)
    else if i > 0 then LostBefore(s, w, h, i - 1, w)
    else 0.0
  }

  /** Up to any point of the scan, and so over the whole image, the total
      intensity changes only by the error lost off the image edges. */
  lemma {:induction false} SumBefore(s: seq<real>, w: nat, h: nat, i: nat, j: nat)
    requires |s| == w * h
    requires (i < h && j <= w) || (i == h && j == 0)
    ensures Sum(Before(s, w, h, i, j)) == Sum(s) - LostBefore(s, w, h, i, j)
    decreases i, j
  {
    if j > 0 {
      SumBefore(s, w, h, i, j - 1);
      StepAccount(Before(s, w, h, i, j - 1), w, h, i, j - 1);
    } else if i > 0 {
      SumBefore(s, w, h, i - 1, w);
    }
  }

  // ---------------------------------------------------------------------------
  // The dither
  // ---------------------------------------------------------------------------

  /** Adds `d` to the entry at position p of the buffer. */
  method AddAt(buf: array<real>, p: nat, d: real)
    requires p < buf.Length
    modifies buf
    ensures buf[..] == old(buf[..])[p := old(buf[p]) + d]
  {
    buf[p] := buf[p] + d;
  }

  /** Performs the step of pixel (i, j) on the intensity buffer in place. */
  method StepInPlace(buf: array<real>, w: nat, h: nat, i: nat, j: nat)
    requires buf.Length == w * h && i < h && j < w
    modifies buf
    ensures buf[..] == FsStep(old(buf[..]), w, h, i, j)
  {
    NeighboursInBounds(w, h, i, j);
    ghost var s := buf[..];
    var pixel := Idx(w, i, j);
    var oldPixel := buf[pixel];
    var newPixel := FindClosestPaletteColor(oldPixel, BlackWhite);
    var quantError := oldPixel - newPixel;
    buf[pixel] := newPixel;
    ghost var s1 := s[pixel := newPixel];
    assert buf[..] == s1;
    if j + 1 < w {
      AddAt(buf, pixel + 1, 0.4375 * quantError);
    }
    ghost var s2 := buf[..];
    assert s2 == if j + 1 < w then s1[pixel + 1 := s1[pixel + 1] + 0.4375 * quantError] else s1;
    if i + 1 < h && j >= 1 {
      AddAt(buf, pixel + w - 1, 0.1875 * quantError);
    }
    ghost var s3 := buf[..];
    assert s3 == if i + 1 < h && j >= 1 then s2[pixel + w - 1 := s2[pixel + w - 1] + 0.1875 * quantError] else s2;
    if i + 1 < h {
      AddAt(buf, pixel + w, 0.3125 * quantError);
    }
    ghost var s4 := buf[..];
    assert s4 == if i + 1 < h then s3[pixel + w := s3[pixel + w] + 0.3125 * quantError] else s3;
    if i + 1 < h && j + 1 < w {
      AddAt(buf, pixel + w + 1, 0.0625 * quantError);
    }
    SpreadSteps(s, pixel, w, j + 1 < w, j >= 1, i + 1 < h, newPixel, s1, s2, s3, s4, buf[..]);
    assert FsStep(s, w, h, i, j) == Spread(s, pixel, w, j + 1 < w, j >= 1, i + 1 < h, newPixel);
  }

  /** The four neighbour updates of `Spread`, one state at a time. */
  lemma SpreadSteps(s: seq<real>, p: nat, w: nat, right: bool, left: bool, below: bool, after: real,
                    s1: seq<real>, s2: seq<real>, s3: seq<real>, s4: seq<real>, s5: seq<real>)
    requires p < |s|
    requires right ==> p + 1 < |s|
    requires below ==> w >= 1 && p + w < |s| && (right ==> p + w + 1 < |s|)
    requires below && left ==> w >= 2
    requires s1 == s[p := after]
    requires s2 == if right then s1[p + 1 := s1[p + 1] + 0.4375 * (s[p] - after)] else s1
    requires s3 == if below && left then s2[p + w - 1 := s2[p + w - 1] + 0.1875 * (s[p] - after)] else s2
    requires s4 == if below then s3[p + w := s3[p + w] + 0.3125 * (s[p] - after)] else s3
    requires s5 == if below && right then s4[p + w + 1 := s4[p + w + 1] + 0.0625 * (s[p] - after)] else s4
    ensures s5 == Spread(s, p, w, right, left, below, after)
  {
  }

  /** The starting intensities: each pixel's luminance divided by 256. */
  function Intensities(img: Image, lum: Luminance): (s: seq<real>)
    ensures |s| == |img.pixels|
  {
    seq(|img.pixels|, k requires 0 <= k < |img.pixels| => Intensity(LumOf(img.pixels[k], lum)))
  }

  /** Runs the scan over every pixel, row by row, on a buffer of `w * h` intensities. */
  method Diffuse(buf: array<real>, w: nat, h: nat)
    requires buf.Length == w * h
    modifies buf
    ensures buf[..] == Before(old(buf[..]), w, h, h, 0)
  {
    ghost var s0 := buf[..];
    var i := 0;
    while i < h
      invariant 0 <= i <= h
      invariant buf[..] == Before(s0, w, h, i, 0)
    {
      var j := 0;
      while j < w
        invariant 0 <= j <= w
        invariant buf[..] == Before(s0, w, h, i, j)
      {
        StepInPlace(buf, w, h, i, j);
        j := j + 1;
      }
      i := i + 1;
    }
  }

  /** At the end of the scan pixel (i, j) holds 1 iff its intensity when the scan
      reached it was above one half, and 0 otherwise. */
  lemma FinalValue(s: seq<real>, w: nat, h: nat, i: nat, j: nat)
    requires |s| == w * h && i < h && j < w
    ensures Idx(w, i, j) < |s|
    ensures Before(s, w, h, h, 0)[Idx(w, i, j)] ==
      if ValueWhenReached(s, w, h, i, j) > 0.5 then 1.0 else 0.0
  {
    RowStart(s, w, h, h);
    Settled(s, w, h, i, j, h - 1, w);
    QuantisedWhenReached(s, w, h, i, j);
    BlackWhiteChoice(ValueWhenReached(s, w, h, i, j));
  }

  /** The final colour of pixel (i, j): white iff its intensity ended at exactly 1. */
  function FsOutputPixel(fin: seq<real>, w: nat, i: nat, j: nat, p: Pixel): Pixel {
    if Idx(w, i, j) < |fin| then Paint(p, fin[Idx(w, i, j)] == 1.0) else p
  }

  /** Grayscale, diffuse the quantisation error over the image in row-major order,
      then make each pixel white iff its intensity ended at exactly 1. So pixel
      (i, j) is white iff the intensity it had when the scan reached it is above
      one half. */
  method DitherFS(img: Image, lum: Luminance) returns (out: Image)
    requires img.Valid()
    ensures out.Valid() && out.width == img.width && out.height == img.height
    ensures forall i, j | 0 <= i < img.height && 0 <= j < img.width ::
      out.At(i, j) == BlackOrWhite(
        ValueWhenReached(Intensities(img, lum), img.width, img.height, i, j) > 0.5, img.At(i, j).a)
  {
    var gray := ToGrayscale(img, lum);
    var w, h := img.width, img.height;
    var buf := new real[w * h];
    var k := 0;
    while k < w * h
      invariant 0 <= k <= w * h
      invariant forall q | 0 <= q < k :: buf[q] == Intensity(gray.pixels[q].r)
    {
      buf[k] := Intensity(gray.pixels[k].r);
      k := k + 1;
    }
    ghost var s0 := buf[..];
    assert s0 == Intensities(img, lum);
    Diffuse(buf, w, h);
    var fin := buf[..];
    out := MapRows(gray, (i: nat, j: nat, p: Pixel) => FsOutputPixel(fin, w, i, j, p));
    forall i, j | 0 <= i < h && 0 <= j < w
      ensures out.At(i, j) == BlackOrWhite(ValueWhenReached(s0, w, h, i, j) > 0.5, img.At(i, j).a)
    {
      FinalValue(s0, w, h, i, j);
    }
  }
}

=== FILE: populosity.dfy ===
/** Populosity quantisation: pre-quantise to 5 bits per channel, count how often
    each colour occurs, keep the (up to) 256 most frequent colours as the palette,
    and replace each pixel's colour by its nearest palette colour. */
module Populosity {
  import opened Raster
  import opened ColorReduction

  /** The colour part of a pixel; the histogram is keyed by it. */
  datatype Color = Color(r: byte, g: byte, b: byte)

  /** One histogram entry: a colour and the number of pixels that have it. */
  datatype Entry = Entry(color: Color, count: nat)

  function ColorOf(p: Pixel): Color {
    Color(p.r, p.g, p.b)
  }

  // ---------------------------------------------------------------------------
  // Pre-quantisation
  // ---------------------------------------------------------------------------

  /** Keeps the top 5 bits of R, G and B: each is shifted right and left by 8 - 5. */
  function PreQuantisePixel(p: Pixel): Pixel {
    Pixel(ShiftMask(p.r, 3), ShiftMask(p.g, 3), ShiftMask(p.b, 3), p.a)
  }

  /** After pre-quantisation each channel is its old value rounded down to a
      multiple of 8; alpha is unchanged. */
  lemma PreQuantiseMultipleOf8(p: Pixel)
    ensures var q := PreQuantisePixel(p);
      && q.r == p.r - p.r % 8 && q.g == p.g - p.g % 8 && q.b == p.b - p.b % 8
      && q.r % 8 == 0 && q.g % 8 == 0 && q.b % 8 == 0 && q.a == p.a
  {
    Pow2Values();
  }

  // ---------------------------------------------------------------------------
  // Histogram
  // ---------------------------------------------------------------------------

  /** The colours of the pixels, in buffer order. */
  function Colors(px: seq<Pixel>): (cs: seq<Color>)
    ensures |cs| == |px|
  {
    seq(|px|, k requires 0 <= k < |px| => ColorOf(px[k]))
  }

  /** The distinct colours of `cs`. */
  function ColorSet(cs: seq<Color>): set<Color> {
    set c | c in cs
  }

  /** `m` maps exactly the colours that occur in `cs` to their number of occurrences. */
  ghost predicate IsHistogram(m: map<Color, nat>, cs: seq<Color>) {
    && (forall c :: c in m <==> c in cs)
    && (forall c | c in m :: m[c] == multiset(cs)[c])
  }

  /** Counts the colours one by one: a new colour is inserted with count 1,
      a known one has its count incremented. */
  method BuildHistogram(cs: seq<Color>) returns (m: map<Color, nat>)
    ensures IsHistogram(m, cs)
  {
    m := map[];
    var i := 0;
    while i < |cs|
      invariant 0 <= i <= |cs|
      invariant IsHistogram(m, cs[..i])
    {
      assert cs[..i + 1] == cs[..i] + [cs[i]];
      var c := cs[i];
      if c !in m {
        m := m[c := 1];
      } else {
        m := m[c := m[c] + 1];
      }
      i := i + 1;
    }
    assert cs[..|cs|] == cs;
  }

  /** No colour has two entries. */
  ghost predicate DistinctColours(es: seq<Entry>) {
    forall i, j | 0 <= i < j < |es| :: es[i].color != es[j].color
  }

  /** The entries of a histogram, one per colour, in no particular order. */
  ghost predicate ListsHistogram(es: seq<Entry>, m: map<Color, nat>) {
    && |es| == |m|
    && (forall i | 0 <= i < |es| :: es[i].color in m && es[i].count == m[es[i].color])
    && (forall c | c in m :: Entry(c, m[c]) in es)
    && DistinctColours(es)
  }

  /** Copies the histogram into a sequence of (colour, count) pairs. */
  method HistogramEntries(m: map<Color, nat>) returns (es: seq<Entry>)
    ensures ListsHistogram(es, m)
  {
    es := [];
    var remaining := m.Keys;
    while remaining != {}
      invariant remaining <= m.Keys
      invariant |es| + |remaining| == |m|
      invariant forall i | 0 <= i < |es| :: es[i].color in m && es[i].count == m[es[i].color]
      invariant forall c | c in m && c !in remaining :: Entry(c, m[c]) in es
      invariant forall i | 0 <= i < |es| :: es[i].color !in remaining
      invariant DistinctColours(es)
      decreases |remaining|
    {
      var c :| c in remaining;
      es := es + [Entry(c, m[c])];
      remaining := remaining - {c};
    }
  }

  // ---------------------------------------------------------------------------
  // Sorting by count
  // ---------------------------------------------------------------------------

  /** Counts never increase along the sequence. */
  ghost predicate SortedByCount(es: seq<Entry>) {
    forall i, j | 0 <= i < j < |es| :: es[i].count >= es[j].count
  }

  /** Inserts `e` in front of the first entry with a smaller count. */
  function Insert(e: Entry, es: seq<Entry>): (r: seq<Entry>)
    requires SortedByCount(es)
    ensures SortedByCount(r)
    ensures multiset(r) == multiset(es) + multiset{e}
    ensures |r| == |es| + 1
    ensures r[0] == e || (|es| > 0 && r[0] == es[0])
  {
    if |es| == 0 then [e]
    else if e.count >= es[0].count then
      ConsSorted(e, es);
      [e] + es
    else
      var rest := Insert(e, es[1..]);
      assert es == [es[0]] + es[1..];
      ConsSorted(es[0], rest);
      [es[0]] + rest
  }

  /** An entry at least as frequent as the head of a sorted list can go in front. */
  lemma ConsSorted(x: Entry, es: seq<Entry>)
    requires SortedByCount(es) && (|es| == 0 || x.count >= es[0].count)
    ensures SortedByCount([x] + es)
  {
    forall i, j | 0 <= i < j < |[x] + es|
      ensures ([x] + es)[i].count >= ([x] + es)[j].count
    {
      if i == 0 && j > 1 {
        assert es[0].count >= es[j - 1].count;
      }
    }
  }

  /** Orders the entries from most to least frequent. */
  function SortByCount(es: seq<Entry>): (r: seq<Entry>)
    ensures SortedByCount(r)
    ensures multiset(r) == multiset(es)
  {
    if |es| == 0 then []
    else
      assert es == [es[0]] + es[1..];
      Insert(es[0], SortByCount(es[1..]))
  }

  // ---------------------------------------------------------------------------
  // The palette
  // ---------------------------------------------------------------------------

  const PaletteSize := 256

  /** The colours of the first 256 sorted entries, as the source takes them: it
      reads entries 0 .. 255 whether or not that many exist. */
  function PaletteAsWritten(sorted: seq<Entry>): (pal: seq<Color>)
    requires |sorted| >= PaletteSize
  {
    seq(PaletteSize, i requires 0 <= i < PaletteSize => sorted[i].color)
  }

  /** A one-pixel image has a single colour, so its sorted histogram has one
      entry: `PaletteAsWritten` cannot be applied to it, and the as-written
      palette loop would read 255 entries past the end. */
  lemma PaletteAsWrittenOverrun(m: map<Color, nat>, es: seq<Entry>)
    requires IsHistogram(m, Colors([Pixel(0, 0, 0, 255)]))
    requires ListsHistogram(es, m)
    ensures |SortByCount(es)| == 1 < PaletteSize
  {
    var cs := Colors([Pixel(0, 0, 0, 255)]);
    assert cs == [Color(0, 0, 0)];
    assert m.Keys == {Color(0, 0, 0)};
    assert |es| == 1;
    assert |SortByCount(es)| == |multiset(SortByCount(es))| == |multiset(es)|;
  }

  /** The colours of the first min(256, n) sorted entries. */
  function Palette(sorted: seq<Entry>): (pal: seq<Color>)
  {
    var n := if |sorted| < PaletteSize then |sorted| else PaletteSize;
    seq(n, i requires 0 <= i < n => sorted[i].color)
  }

  /** Unfolds the palette: its length and its i-th colour. */
  lemma PaletteEntries(sorted: seq<Entry>)
    ensures var pal := Palette(sorted);
      && |pal| == (if |sorted| < PaletteSize then |sorted| else PaletteSize)
      && (forall i | 0 <= i < |pal| :: pal[i] == sorted[i].color)
  {
  }

  /** Every palette colour occurs at least as often as every colour left out. */
  ghost predicate Popular(pal: seq<Color>, m: map<Color, nat>) {
    forall c, d | c in pal && c in m && d in m && d !in pal :: m[c] >= m[d]
  }

  /** Reordering the entries of a histogram still lists it. */
  lemma ListsHistogramPermutation(m: map<Color, nat>, es: seq<Entry>, es': seq<Entry>)
    requires ListsHistogram(es, m) && multiset(es') == multiset(es)
    ensures ListsHistogram(es', m)
  {
    assert |es'| == |multiset(es')| == |multiset(es)| == |es|;
    forall i | 0 <= i < |es'|
      ensures es'[i].color in m && es'[i].count == m[es'[i].color]
    {
      assert es'[i] in multiset(es);
    }
    forall c | c in m
      ensures Entry(c, m[c]) in es'
    {
      assert Entry(c, m[c]) in multiset(es);
    }
    forall i, j | 0 <= i < j < |es'|
      ensures es'[i].color != es'[j].color
    {
      if es'[i].color == es'[j].color {
        TwiceInMultiset(es', i, j);
        DistinctAtMostOnce(es, es'[i]);
        assert false;
      }
    }
  }

  /** An element at two positions occurs at least twice. */
  lemma TwiceInMultiset(s: seq<Entry>, i: nat, j: nat)
    requires i < j < |s| && s[i] == s[j]
    ensures multiset(s)[s[i]] >= 2
  {
    assert s == s[..j] + s[j..];
    assert s[i] == s[..j][i];
    assert s[j] == s[j..][0];
  }

  /** With one entry per colour, no entry occurs twice. */
  lemma {:induction false} DistinctAtMostOnce(es: seq<Entry>, e: Entry)
    requires DistinctColours(es)
    ensures multiset(es)[e] <= 1
  {
    if |es| > 0 {
      var rest := es[1..];
      assert es == [es[0]] + rest;
      assert DistinctColours(rest) by {
        forall i, j | 0 <= i < j < |rest|
          ensures rest[i].color != rest[j].color
        {
          assert rest[i] == es[i + 1] && rest[j] == es[j + 1];
        }
      }
      DistinctAtMostOnce(rest, e);
      if e == es[0] {
        forall k | 0 <= k < |rest|
          ensures rest[k] != e
        {
          assert rest[k] == es[k + 1];
        }
        assert e !in rest;
      }
    }
  }

  /** The colours of a leading part of a count-sorted listing are the most popular. */
  lemma SortedPrefixPopular(m: map<Color, nat>, sorted: seq<Entry>)
    requires ListsHistogram(sorted, m) && SortedByCount(sorted)
    ensures var pal := Palette(sorted);
      && (forall c | c in pal :: c in m)
      && Popular(pal, m)
  {
    var pal := Palette(sorted);
    PaletteEntries(sorted);
    forall c, d | c in pal && c in m && d in m && d !in pal
      ensures m[c] >= m[d]
    {
      var i :| 0 <= i < |pal| && pal[i] == c;
      var j :| 0 <= j < |sorted| && sorted[j] == Entry(d, m[d]);
    }
  }

  /** Entries with pairwise different colours give a palette without repeats. */
  lemma PaletteDistinct(sorted: seq<Entry>)
    requires DistinctColours(sorted)
    ensures var pal := Palette(sorted);
      forall i, j | 0 <= i < j < |pal| :: pal[i] != pal[j]
  {
    var pal := Palette(sorted);
    PaletteEntries(sorted);
    forall i, j | 0 <= i < j < |pal|
      ensures pal[i] != pal[j]
    {
      assert pal[i] == sorted[i].color && pal[j] == sorted[j].color;
    }
  }

  /** Taking a prefix of the sorted histogram gives the most popular colours, and
      exactly min(256, number of colours) of them, each occurring in the image
      and none twice. */
  lemma PaletteIsPopular(m: map<Color, nat>, es: seq<Entry>)
    requires ListsHistogram(es, m)
    ensures var pal := Palette(SortByCount(es));
      && |pal| == (if |m| < PaletteSize then |m| else PaletteSize)
      && (forall c | c in pal :: c in m)
      && (forall i, j | 0 <= i < j < |pal| :: pal[i] != pal[j])
      && Popular(pal, m)
  {
    var sorted := SortByCount(es);
    ListsHistogramPermutation(m, es, sorted);
    PaletteEntries(sorted);
    SortedPrefixPopular(m, sorted);
    PaletteDistinct(sorted);
  }

  // ---------------------------------------------------------------------------
  // Nearest palette colour
  // ---------------------------------------------------------------------------

  function Sq(x: int): nat {
    x * x
  }

  /** The squared euclidean distance of two colours. The source compares the square
      roots; the square root is increasing, so it compares the same way. */
  function SqDist(p: Color, c: Color): nat {
    Sq(p.r - c.r) + Sq(p.g - c.g) + Sq(p.b - c.b)
  }

  lemma SqBelow(x: int)
    requires -255 <= x <= 255
    ensures Sq(x) <= 65025
  {
    if x < 0 {
      assert Sq(x) == Sq(-x);
      SqBelowNat(-x);
    } else {
      SqBelowNat(x);
    }
  }

  lemma SqBelowNat(x: nat)
    requires x <= 255
    ensures Sq(x) <= 65025
  {
    MulMono(x, 255, x);
    MulMono(x, 255, 255);
  }

  /** The initial bound 500 on the distance: no two colours are 500 or more apart,
      so the first palette entry is always accepted. */
  lemma SqDistBelowBound(p: Color, c: Color)
    ensures SqDist(p, c) < 500 * 500
  {
    SqBelow(p.r - c.r);
    SqBelow(p.g - c.g);
    SqBelow(p.b - c.b);
  }

  /** Square roots of two different squared distances differ by at least 1/884.
      Every squared distance is at most 3 * 255 * 255 = 195075, so both roots are
      below 442; then (y - x) * (y + x) >= 1 with y + x < 884. Near 442 a `float`
      has a spacing of 2^-15, far below 1/884, and rounding is monotone, so the
      rounded roots the source compares are ordered, and tie, exactly as the
      integer squared distances are. */
  lemma SqrtGap(d1: nat, d2: nat, x: real, y: real)
    requires d1 < d2 <= 195075
    requires 0.0 <= x && x * x == d1 as real
    requires 0.0 <= y && y * y == d2 as real
    ensures 884.0 * (y - x) >= 1.0
    ensures y - x > 16.0 / 32768.0
  {
    assert y < 442.0 by {
      if y >= 442.0 {
        RealSqMono(442.0, y);
        assert false;
      }
    }
    assert x < y by {
      if x >= y {
        RealSqMono(y, x);
        assert false;
      }
    }
    assert (y - x) * (y + x) == y * y - x * x;
    assert (y - x) * (y + x) >= 1.0;
    var gap, room := y - x, 884.0 - (y + x);
    assert 0.0 < gap && 0.0 < room;
    assert room * gap >= 0.0;
    assert 884.0 * gap == room * gap + (y + x) * (y - x);
  }

  lemma RealSqMono(a: real, b: real)
    requires 0.0 <= a <= b
    ensures a * a <= b * b
  {
    assert a * a <= a * b;
  }

  /** `k` is the first palette index at the least squared distance from `p`. */
  ghost predicate FirstNearest(p: Color, pal: seq<Color>, k: nat) {
    && k < |pal|
    && (forall i | 0 <= i < |pal| :: SqDist(p, pal[k]) <= SqDist(p, pal[i]))
    && (forall i | 0 <= i < k :: SqDist(p, pal[i]) > SqDist(p, pal[k]))
  }

  /** Scans the palette keeping the first colour strictly nearer than the best so
      far, starting from the bound 500 and the colour black. */
  method NearestColor(p: Color, pal: seq<Color>) returns (c: Color)
    ensures |pal| == 0 ==> c == Color(0, 0, 0)
    ensures |pal| > 0 ==> exists k: nat :: FirstNearest(p, pal, k) && c == pal[k]
  {
    var minDistance := 500 * 500;
    c := Color(0, 0, 0);
    ghost var k := 0;
    var j := 0;
    while j < |pal|
      invariant 0 <= j <= |pal|
      invariant j > 0 ==> k < j && c == pal[k] && minDistance == SqDist(p, pal[k])
      invariant j > 0 ==> forall i | 0 <= i < j :: SqDist(p, pal[k]) <= SqDist(p, pal[i])
      invariant j > 0 ==> forall i | 0 <= i < k :: SqDist(p, pal[i]) > SqDist(p, pal[k])
      invariant j == 0 ==> c == Color(0, 0, 0) && minDistance == 500 * 500
    {
      var distance := SqDist(p, pal[j]);
      SqDistBelowBound(p, pal[j]);
      if distance < minDistance {
        minDistance := distance;
        c := pal[j];
        k := j;
      }
      j := j + 1;
    }
    if |pal| > 0 {
      assert FirstNearest(p, pal, k);
    }
  }

  /** A colour already in the palette is mapped to itself, or to an equal earlier
      entry: its distance is zero. */
  lemma PaletteColourKept(p: Color, pal: seq<Color>, k: nat)
    requires FirstNearest(p, pal, k) && p in pal
    ensures pal[k] == p
  {
    var i :| 0 <= i < |pal| && pal[i] == p;
    assert SqDist(p, pal[i]) == 0;
    SqDistZero(p, pal[k]);
  }

  lemma SqDistZero(p: Color, c: Color)
    requires SqDist(p, c) == 0
    ensures p == c
  {
    if p != c {
      if p.r != c.r {
        SqPositive(p.r - c.r);
      } else if p.g != c.g {
        SqPositive(p.g - c.g);
      } else {
        SqPositive(p.b - c.b);
      }
      assert false;
    }
  }

  lemma SqPositive(x: int)
    requires x != 0
    ensures Sq(x) > 0
  {
    if x > 0 {
      MulMono(1, x, x);
    } else {
      MulMono(1, -x, -x);
      assert Sq(x) == (-x) * (-x);
    }
  }

  // ---------------------------------------------------------------------------
  // The transform
  // ---------------------------------------------------------------------------

  /** A pixel with its colour channels replaced by `c` and its alpha kept. */
  function Recolour(p: Pixel, c: Color): Pixel {
    p.(r := c.r, g := c.g, b := c.b)
  }

  /** Replaces every pixel's colour with its nearest palette colour. */
  method MapToPalette(img: Image, pal: seq<Color>) returns (out: Image)
    requires img.Valid() && |pal| > 0
    ensures out.Valid() && out.width == img.width && out.height == img.height
    ensures forall k | 0 <= k < |img.pixels| ::
      && out.pixels[k].a == img.pixels[k].a
      && exists n: nat :: FirstNearest(ColorOf(img.pixels[k]), pal, n) && ColorOf(out.pixels[k]) == pal[n]
  {
    var len := |img.pixels|;
    var data := new Pixel[len];
    var i := 0;
    while i < len
      invariant 0 <= i <= len
      invariant forall q | 0 <= q < i ::
        && data[q].a == img.pixels[q].a
        && exists n: nat :: FirstNearest(ColorOf(img.pixels[q]), pal, n) && ColorOf(data[q]) == pal[n]
    {
      var p := img.pixels[i];
      var c := NearestColor(ColorOf(p), pal);
      data[i] := Recolour(p, c);
      i := i + 1;
    }
    out := Image(img.width, img.height, data[..]);
  }

  /** Pre-quantise, count, pick the most popular colours and map every pixel to
      its nearest one. Also returns the palette. The palette has min(256, number
      of distinct pre-quantised colours) distinct entries, each occurring in the
      image, and is at least as popular as every colour left out; each output pixel has
      the first nearest palette colour to its pre-quantised colour, and its alpha. */
  method QuantPopulosity(img: Image) returns (out: Image, pal: seq<Color>)
    requires img.Valid()
    ensures out.Valid() && out.width == img.width && out.height == img.height
    ensures var cs := Colors(Mapped(img, (i, j, p) => PreQuantisePixel(p)).pixels);
      var distinct := |ColorSet(cs)|;
      && |pal| == (if distinct < PaletteSize then distinct else PaletteSize)
      && (forall c | c in pal :: c in cs)
      && (forall i, j | 0 <= i < j < |pal| :: pal[i] != pal[j])
      && (forall c, d | c in pal && d in cs && d !in pal :: multiset(cs)[c] >= multiset(cs)[d])
    ensures forall k | 0 <= k < |img.pixels| ::
      var q := PreQuantisePixel(img.pixels[k]);
      && out.pixels[k].a == img.pixels[k].a
      && exists n: nat :: FirstNearest(ColorOf(q), pal, n) && ColorOf(out.pixels[k]) == pal[n]
  {
    var pre := MapRows(img, (i, j, p) => PreQuantisePixel(p));
    var cs := Colors(pre.pixels);
    var hist := BuildHistogram(cs);
    var entries := HistogramEntries(hist);
    var sorted := SortByCount(entries);
    pal := Palette(sorted);
    PaletteEntries(sorted);
    PaletteIsPopular(hist, entries);
    HistogramSize(hist, cs);
    if |pal| == 0 {
      out := pre;
    } else {
      out := MapToPalette(pre, pal);
    }
    forall k | 0 <= k < |img.pixels|
      ensures pre.pixels[k] == PreQuantisePixel(img.pixels[k])
    {
      MappedFlat(img, (i, j, p) => PreQuantisePixel(p), k);
    }
    if |pal| == 0 {
      assert |cs| == 0;
    }
  }

  /** A histogram has one key per distinct colour. */
  lemma HistogramSize(m: map<Color, nat>, cs: seq<Color>)
    requires IsHistogram(m, cs)
    ensures |m| == |ColorSet(cs)|
    ensures |m| == 0 ==> |cs| == 0
  {
    assert m.Keys == ColorSet(cs);
    if |cs| > 0 {
      assert cs[0] in m;
    }
  }
}

=== FILE: raster.dfy ===
/** The raster buffer shared by every transform: a width x height grid of RGBA
    pixels stored row-major with row 0 at the top, together with the index
    arithmetic the transforms use to walk it. */
module Raster {

  /** An unsigned 8-bit channel value. */
  type byte = x: int | 0 <= x < 256

  /** One pixel: four consecutive bytes of the buffer in the order R, G, B, A. */
  datatype Pixel = Pixel(r: byte, g: byte, b: byte, a: byte)

  /** A width x height image; pixel (row, col) lives at `Idx(width, row, col)`. */
  datatype Image = Image(width: nat, height: nat, pixels: seq<Pixel>) {
    predicate Valid() {
      |pixels| == width * height
    }

    /** The pixel in row `row` (counted from the top) and column `col`. */
    function At(row: nat, col: nat): Pixel
      requires Valid() && row < height && col < width
    {
      IdxBounds(width, height, row, col);
      pixels[Idx(width, row, col)]
    }
  }

  /** Position of (row, col) in the row-major pixel sequence. */
  function Idx(width: nat, row: nat, col: nat): nat {
    row * width + col
  }

  /** A pixel whose three colour channels all hold `v`, with alpha `a`. */
  function Gray(v: byte, a: byte): Pixel {
    Pixel(v, v, v, a)
  }

  /** Pure black or pure white, keeping alpha `a`. */
  function BlackOrWhite(white: bool, a: byte): Pixel {
    if white then Gray(255, a) else Gray(0, a)
  }

  /** Stores `x` into an unsigned char: reduction modulo 256. */
  function ToByte(x: int): byte {
    x % 256
  }

  /** Channel `c` of a pixel, in buffer byte order (0 = R, 1 = G, 2 = B, 3 = A). */
  function Channel(p: Pixel, c: nat): byte
    requires c < 4
  {
    match c
    case 0 => p.r
    case 1 => p.g
    case 2 => p.b
    case _ => p.a
  }

  // ---------------------------------------------------------------------------
  // Index arithmetic
  // ---------------------------------------------------------------------------

  lemma MulMono(a: nat, b: nat, w: nat)
    requires a <= b
    ensures a * w <= b * w
  {
  }

  /** A multiple of `w` strictly between -w and w is zero. */
  lemma MulSmall(k: int, w: nat)
    requires w > 0 && -(w as int) < k * w < w
    ensures k == 0
  {
    if k >= 1 {
      MulMono(1, k, w);
    }
  }

  /** Euclidean division is determined by any decomposition with a remainder in range. */
  lemma DivModUnique(x: int, d: nat, q: int, r: int)
    requires d > 0 && x == q * d + r && 0 <= r < d
    ensures x / d == q && x % d == r
  {
    var q', r' := x / d, x % d;
    assert x == q' * d + r';
    assert (q - q') * d == r' - r;
    MulSmall(q - q', d);
  }

  lemma IdxBounds(width: nat, height: nat, row: nat, col: nat)
    requires row < height && col < width
    ensures Idx(width, row, col) < width * height
  {
    MulMono(row + 1, height, width);
  }

  lemma IdxDivMod(width: nat, row: nat, col: nat)
    requires col < width
    ensures Idx(width, row, col) / width == row
    ensures Idx(width, row, col) % width == col
  {
    DivModUnique(Idx(width, row, col), width, row, col);
  }

  /** Distinct (row, col) cells of one grid occupy distinct positions. */
  lemma IdxInjective(width: nat, row: nat, col: nat, row': nat, col': nat)
    requires col < width && col' < width
    requires Idx(width, row, col) == Idx(width, row', col')
    ensures row == row' && col == col'
  {
    IdxDivMod(width, row, col);
    IdxDivMod(width, row', col');
  }

  /** Every position of a width x height grid is the index of some cell. */
  lemma IdxCover(width: nat, height: nat, k: nat)
    requires k < width * height
    ensures width > 0 && k / width < height && k % width < width
    ensures Idx(width, k / width, k % width) == k
  {
    if k / width >= height {
      MulMono(height, k / width, width);
    }
  }

  // ---------------------------------------------------------------------------
  // The byte buffer
  // ---------------------------------------------------------------------------

  /** The buffer as `width*height*4` bytes, four per pixel in the order R, G, B, A. */
  function ToBytes(px: seq<Pixel>): (bs: seq<byte>)
    ensures |bs| == 4 * |px|
  {
    seq(4 * |px|, i requires 0 <= i < 4 * |px| => Channel(px[i / 4], i % 4))
  }

  /** Reads a byte buffer four bytes at a time. */
  function FromBytes(bs: seq<byte>): (px: seq<Pixel>)
    requires |bs| % 4 == 0
    ensures |px| == |bs| / 4
  {
    seq(|bs| / 4, k requires 0 <= k < |bs| / 4 =>
      Pixel(bs[4 * k], bs[4 * k + 1], bs[4 * k + 2], bs[4 * k + 3]))
  }

  /** Reading back the bytes of a pixel sequence gives the same pixels. */
  lemma FromToBytes(px: seq<Pixel>)
    ensures FromBytes(ToBytes(px)) == px
  {
    var bs := ToBytes(px);
    forall k | 0 <= k < |px|
      ensures FromBytes(bs)[k] == px[k]
    {
      DivModUnique(4 * k, 4, k, 0);
      DivModUnique(4 * k + 1, 4, k, 1);
      DivModUnique(4 * k + 2, 4, k, 2);
      DivModUnique(4 * k + 3, 4, k, 3);
    }
  }

  /** Every byte buffer whose length is a multiple of four is the layout of its pixels. */
  lemma ToFromBytes(bs: seq<byte>)
    requires |bs| % 4 == 0
    ensures ToBytes(FromBytes(bs)) == bs
  {
    var px := FromBytes(bs);
    forall i | 0 <= i < |bs|
      ensures ToBytes(px)[i] == bs[i]
    {
      DivModUnique(i, 4, i / 4, i % 4);
    }
  }

  // ---------------------------------------------------------------------------
  // Whole-buffer operations
  // ---------------------------------------------------------------------------

  /** Sets every byte of the buffer, alpha included, to zero. */
  method ClearToBlack(img: Image) returns (out: Image)
    requires img.Valid()
    ensures out.Valid() && out.width == img.width && out.height == img.height
    ensures forall k | 0 <= k < |out.pixels| :: out.pixels[k] == Pixel(0, 0, 0, 0)
  {
    var n := |img.pixels|;
    var buf := new Pixel[n];
    var k := 0;
    while k < n
      invariant 0 <= k <= n
      invariant forall q | 0 <= q < k :: buf[q] == Pixel(0, 0, 0, 0)
    {
      buf[k] := Pixel(0, 0, 0, 0);
      k := k + 1;
    }
    out := Image(img.width, img.height, buf[..]);
  }

  /** The flat pass shared by the per-pixel transforms that walk the buffer four
      bytes at a time: pixel k is replaced by `f(k, p)` of its old value p. */
  method MapEach(img: Image, f: (nat, Pixel) -> Pixel) returns (out: Image)
    requires img.Valid()
    ensures out.Valid() && out.width == img.width && out.height == img.height
    ensures forall k | 0 <= k < |img.pixels| :: out.pixels[k] == f(k, img.pixels[k])
  {
    var n := |img.pixels|;
    var data := new Pixel[n];
    var k := 0;
    while k < n
      invariant 0 <= k <= n
      invariant forall q | 0 <= q < k :: data[q] == f(q, img.pixels[q])
    {
      data[k] := f(k, img.pixels[k]);
      k := k + 1;
    }
    out := Image(img.width, img.height, data[..]);
  }

  /** The image whose pixel in row i, column j is `f(i, j, p)` of the input's pixel p there. */
  function Mapped(img: Image, f: (nat, nat, Pixel) -> Pixel): (r: Image)
    requires img.Valid()
    ensures r.Valid() && r.width == img.width && r.height == img.height
    ensures forall i, j | 0 <= i < img.height && 0 <= j < img.width ::
      r.At(i, j) == f(i, j, img.At(i, j))
  {
    var w, h := img.width, img.height;
    var px := seq(w * h, k requires 0 <= k < w * h =>
      IdxCover(w, h, k);
      f(k / w, k % w, img.At(k / w, k % w)));
    var r := Image(w, h, px);
    forall i, j | 0 <= i < h && 0 <= j < w
      ensures r.At(i, j) == f(i, j, img.At(i, j))
    {
      IdxBounds(w, h, i, j);
      IdxDivMod(w, i, j);
    }
    r
  }

  /** A pixelwise map, read at a flat position k of the buffer: row k / width, column k % width. */
  lemma MappedFlat(img: Image, f: (nat, nat, Pixel) -> Pixel, k: nat)
    requires img.Valid() && k < |img.pixels|
    ensures img.width > 0
    ensures Mapped(img, f).pixels[k] == f(k / img.width, k % img.width, img.pixels[k])
  {
    IdxCover(img.width, img.height, k);
  }

  /** The row-by-row, column-by-column pass shared by the per-pixel transforms:
      the pixel in row i, column j is replaced by `f(i, j, p)` of its old value p. */
  method MapRows(img: Image, f: (nat, nat, Pixel) -> Pixel) returns (out: Image)
    requires img.Valid()
    ensures out == Mapped(img, f)
  {
    var w, h := img.width, img.height;
    ghost var r := Mapped(img, f);
    var data := new Pixel[w * h];
    var i := 0;
    while i < h
      invariant 0 <= i <= h
      invariant i * w <= w * h
      invariant forall q | 0 <= q < i * w :: data[q] == r.pixels[q]
    {
      var j := 0;
      while j < w
        invariant 0 <= j <= w
        invariant Idx(w, i, j) <= w * h
        invariant forall q | 0 <= q < Idx(w, i, j) :: data[q] == r.pixels[q]
      {
        IdxBounds(w, h, i, j);
        assert r.pixels[Idx(w, i, j)] == r.At(i, j) == f(i, j, img.At(i, j));
        data[Idx(w, i, j)] := f(i, j, img.At(i, j));
        j := j + 1;
      }
      assert Idx(w, i, w) == (i + 1) * w;
      MulMono(i + 1, h, w);
      i := i + 1;
    }
    assert data[..] == r.pixels;
    out := Image(w, h, data[..]);
  }

  /** The image with its rows in the opposite order: row i is the input's row height-1-i. */
  function Reversed(img: Image): (r: Image)
    requires img.Valid()
    ensures r.Valid() && r.width == img.width && r.height == img.height
    ensures forall i, j | 0 <= i < img.height && 0 <= j < img.width ::
      r.At(i, j) == img.At(img.height - 1 - i, j)
  {
    var w, h := img.width, img.height;
    var px := seq(w * h, k requires 0 <= k < w * h =>
      IdxCover(w, h, k);
      img.At(h - 1 - k / w, k % w));
    var r := Image(w, h, px);
    forall i, j | 0 <= i < h && 0 <= j < w
      ensures r.At(i, j) == img.At(h - 1 - i, j)
    {
      IdxBounds(w, h, i, j);
      IdxDivMod(w, i, j);
    }
    r
  }

  /** Reversing the rows twice gives back the original image. */
  lemma ReversedInvolution(img: Image)
    requires img.Valid()
    ensures Reversed(Reversed(img)) == img
  {
    var w, h := img.width, img.height;
    var rr := Reversed(Reversed(img));
    forall k | 0 <= k < w * h
      ensures rr.pixels[k] == img.pixels[k]
    {
      IdxCover(w, h, k);
    }
  }

  /** The row reversal read on the byte buffers: byte `4 * (i * width + j) + c`
      of the result is byte `4 * ((height - i - 1) * width + j) + c` of the input,
      for each of the four channels c. */
  lemma ReversedBytes(img: Image, i: nat, j: nat, c: nat)
    requires img.Valid() && i < img.height && j < img.width && c < 4
    ensures var w, h := img.width, img.height;
      && 4 * Idx(w, i, j) + c < 4 * |img.pixels|
      && 4 * Idx(w, h - i - 1, j) + c < 4 * |img.pixels|
      && ToBytes(Reversed(img).pixels)[4 * Idx(w, i, j) + c]
         == ToBytes(img.pixels)[4 * Idx(w, h - i - 1, j) + c]
  {
    var w, h := img.width, img.height;
    var r := Reversed(img);
    IdxBounds(w, h, i, j);
    IdxBounds(w, h, h - i - 1, j);
    ToBytesAt(r.pixels, Idx(w, i, j), c);
    ToBytesAt(img.pixels, Idx(w, h - i - 1, j), c);
    assert r.At(i, j) == img.At(h - 1 - i, j);
  }

  /** Byte `4 * k + c` of the buffer is channel c of pixel k. */
  lemma ToBytesAt(px: seq<Pixel>, k: nat, c: nat)
    requires k < |px| && c < 4
    ensures 4 * k + c < 4 * |px| && ToBytes(px)[4 * k + c] == Channel(px[k], c)
  {
    DivModUnique(4 * k + c, 4, k, c);
  }

  /** Copies the image into a new one, reading row height-1-i for output row i. */
  method ReverseRows(img: Image) returns (out: Image)
    requires img.Valid()
    ensures out == Reversed(img)
  {
    var w, h := img.width, img.height;
    ghost var r := Reversed(img);
    var dest := new Pixel[w * h];
    var i := 0;
    while i < h
      invariant 0 <= i <= h
      invariant i * w <= w * h
      invariant forall q | 0 <= q < i * w :: dest[q] == r.pixels[q]
    {
      var j := 0;
      while j < w
        invariant 0 <= j <= w
        invariant Idx(w, i, j) <= w * h
        invariant forall q | 0 <= q < Idx(w, i, j) :: dest[q] == r.pixels[q]
      {
        IdxBounds(w, h, i, j);
        assert r.pixels[Idx(w, i, j)] == r.At(i, j) == img.At(h - 1 - i, j);
        dest[Idx(w, i, j)] := img.At(h - 1 - i, j);
        j := j + 1;
      }
      assert Idx(w, i, w) == (i + 1) * w;
      MulMono(i + 1, h, w);
      i := i + 1;
    }
    assert dest[..] == r.pixels;
    out := Image(w, h, dest[..]);
  }

  /** The width x height image whose pixel (i, j) is f(i, j). */
  function Tabulated(width: nat, height: nat, f: (nat, nat) -> Pixel): (r: Image)
    ensures r.Valid() && r.width == width && r.height == height
    ensures forall i, j | 0 <= i < height && 0 <= j < width :: r.At(i, j) == f(i, j)
  {
    var px := seq(width * height, k requires 0 <= k < width * height =>
      IdxCover(width, height, k);
      f(k / width, k % width));
    var r := Image(width, height, px);
    forall i, j | 0 <= i < height && 0 <= j < width
      ensures r.At(i, j) == f(i, j)
    {
      IdxBounds(width, height, i, j);
      IdxDivMod(width, i, j);
    }
    r
  }

  /** Fills a new width x height buffer row by row with f(i, j). */
  method Tabulate(width: nat, height: nat, f: (nat, nat) -> Pixel) returns (out: Image)
    ensures out == Tabulated(width, height, f)
  {
    ghost var r := Tabulated(width, height, f);
    var data := new Pixel[width * height];
    var i := 0;
    while i < height
      invariant 0 <= i <= height
      invariant i * width <= width * height
      invariant forall q | 0 <= q < i * width :: data[q] == r.pixels[q]
    {
      var j := 0;
      while j < width
        invariant 0 <= j <= width
        invariant Idx(width, i, j) <= width * height
        invariant forall q | 0 <= q < Idx(width, i, j) :: data[q] == r.pixels[q]
      {
        IdxBounds(width, height, i, j);
        assert r.pixels[Idx(width, i, j)] == r.At(i, j) == f(i, j);
        data[Idx(width, i, j)] := f(i, j);
        j := j + 1;
      }
      assert Idx(width, i, width) == (i + 1) * width;
      MulMono(i + 1, height, width);
      i := i + 1;
    }
    assert data[..] == r.pixels;
    out := Image(width, height, data[..]);
  }
}

=== FILE: resample.dfy ===
/** Half_Size: the image is reduced to half its width and height (rounded down).
    Output pixel (i, j) is the 1-2-1 weighted average, divided by 16, of the
    3 x 3 neighbourhood of input pixel (2i, 2j); neighbours outside the image
    are skipped, not renormalised. All reads come from a snapshot of the input,
    and the output alpha is 255. */
module Resample {
  import opened Raster
  import opened Convolution

  const HalfKernel: Kernel := [
    [1, 2, 1],
    [2, 4, 2],
    [1, 2, 1]
  ]

  const HalfDiv: int := 16

  lemma HalfKernelSum()
    ensures KernelShape(HalfKernel, 3) && WeightSum(HalfKernel, 3) == HalfDiv
  {
  }

  /** Tap (h, w) of output pixel (i, j): input pixel (2i + h - 1, 2j + w - 1),
      counted only when it lies on the image. */
  function HalfTap(img: Image, i: nat, j: nat, h: nat, w: nat, ch: nat): int
    requires img.Valid() && h < 3 && w < 3 && ch < 3
  {
    var row, col := 2 * i + h - 1, 2 * j + w - 1;
    if 0 <= row < img.height && 0 <= col < img.width then HalfKernel[h][w] * Channel(img.At(row, col), ch)
    else 0
  }

  function HalfRow(img: Image, i: nat, j: nat, h: nat, m: nat, ch: nat): int
    requires img.Valid() && h < 3 && m <= 3 && ch < 3
  {
    if m == 0 then 0 else HalfRow(img, i, j, h, m - 1, ch) + HalfTap(img, i, j, h, m - 1, ch)
  }

  function HalfWindow(img: Image, i: nat, j: nat, m: nat, ch: nat): int
    requires img.Valid() && m <= 3 && ch < 3
  {
    if m == 0 then 0 else HalfWindow(img, i, j, m - 1, ch) + HalfRow(img, i, j, m - 1, 3, ch)
  }

  /** Output pixel (i, j): each colour channel normalised by 16, alpha opaque. */
  function HalfPixel(img: Image, i: nat, j: nat): Pixel
    requires img.Valid()
  {
    Pixel(Normalize(HalfWindow(img, i, j, 3, 0), HalfDiv),
          Normalize(HalfWindow(img, i, j, 3, 1), HalfDiv),
          Normalize(HalfWindow(img, i, j, 3, 2), HalfDiv),
          255)
  }

  /** The output is (width / 2) x (height / 2); pixel (i, j) is computed from the
      neighbourhood of input pixel (2i, 2j). */
  method HalfSize(img: Image) returns (out: Image)
    requires img.Valid()
    ensures out.Valid() && out.width == img.width / 2 && out.height == img.height / 2
    ensures forall i, j | 0 <= i < out.height && 0 <= j < out.width :: out.At(i, j) == HalfPixel(img, i, j)
  {
    out := Tabulate(img.width / 2, img.height / 2, (i: nat, j: nat) => HalfPixel(img, i, j));
  }

  /** Channel `ch` has the value v on the rows lo .. 2i+1 and the columns
      2j-1 .. 2j+1 that lie on the image. */
  predicate FlatBelow(img: Image, i: nat, j: nat, lo: int, ch: nat, v: byte)
    requires img.Valid() && ch < 3
  {
    forall row, col | lo <= row <= 2 * i + 1 && 2 * j - 1 <= col <= 2 * j + 1
      && 0 <= row < img.height && 0 <= col < img.width :: Channel(img.At(row, col), ch) == v
  }

  lemma {:induction false} FlatHalfRow(img: Image, i: nat, j: nat, h: nat, m: nat, ch: nat, v: byte)
    requires img.Valid() && h < 3 && m <= 3 && ch < 3
    requires 1 <= j && 2 * j + 1 < img.width && 0 <= 2 * i + h - 1 < img.height
    requires FlatBelow(img, i, j, 2 * i + h - 1, ch, v)
    ensures HalfRow(img, i, j, h, m, ch) == v * RowTotal(HalfKernel[h], m)
  {
    if m > 0 {
      FlatHalfRow(img, i, j, h, m - 1, ch, v);
      assert Channel(img.At(2 * i + h - 1, 2 * j + m - 2), ch) == v;
      assert v * RowTotal(HalfKernel[h], m) == v * RowTotal(HalfKernel[h], m - 1) + HalfKernel[h][m - 1] * v;
    }
  }

  /** Away from the top and left edges, a neighbourhood that is flat in every
      colour channel is reproduced exactly, with opaque alpha. */
  lemma HalfSizeKeepsFlat(img: Image, i: nat, j: nat)
    requires img.Valid() && 1 <= i < img.height / 2 && 1 <= j < img.width / 2
    requires var p := img.At(2 * i, 2 * j);
      FlatBelow(img, i, j, 2 * i - 1, 0, p.r) && FlatBelow(img, i, j, 2 * i - 1, 1, p.g)
      && FlatBelow(img, i, j, 2 * i - 1, 2, p.b)
    ensures HalfPixel(img, i, j) == img.At(2 * i, 2 * j).(a := 255)
  {
    var p := img.At(2 * i, 2 * j);
    HalfKernelSum();
    FlatHalf(img, i, j, 0, p.r);
    FlatHalf(img, i, j, 1, p.g);
    FlatHalf(img, i, j, 2, p.b);
    NormalizeUniform(p.r, HalfDiv);
    NormalizeUniform(p.g, HalfDiv);
    NormalizeUniform(p.b, HalfDiv);
  }

  lemma FlatHalf(img: Image, i: nat, j: nat, ch: nat, v: byte)
    requires img.Valid() && 1 <= i < img.height / 2 && 1 <= j < img.width / 2 && ch < 3
    requires FlatBelow(img, i, j, 2 * i - 1, ch, v)
    ensures HalfWindow(img, i, j, 3, ch) == v * HalfDiv
  {
    HalfRowTotals();
    HalfWindowRows(img, i, j, ch);
    FlatHalfRow(img, i, j, 0, 3, ch, v);
    FlatHalfRow(img, i, j, 1, 3, ch, v);
    FlatHalfRow(img, i, j, 2, 3, ch, v);
  }

  lemma HalfRowTotals()
    ensures RowTotal(HalfKernel[0], 3) == 4 && RowTotal(HalfKernel[1], 3) == 8 && RowTotal(HalfKernel[2], 3) == 4
  {
  }

  lemma HalfWindowRows(img: Image, i: nat, j: nat, ch: nat)
    requires img.Valid() && ch < 3
    ensures HalfWindow(img, i, j, 3, ch) ==
      HalfRow(img, i, j, 0, 3, ch) + HalfRow(img, i, j, 1, 3, ch) + HalfRow(img, i, j, 2, 3, ch)
  {
    assert HalfWindow(img, i, j, 1, ch) == HalfRow(img, i, j, 0, 3, ch);
  }

  /** A window row that lies off the image contributes nothing. */
  lemma {:induction false} OffImageRow(img: Image, i: nat, j: nat, h: nat, m: nat, ch: nat)
    requires img.Valid() && h < 3 && m <= 3 && ch < 3
    requires !(0 <= 2 * i + h - 1 < img.height)
    ensures HalfRow(img, i, j, h, m, ch) == 0
  {
    if m > 0 {
      OffImageRow(img, i, j, h, m - 1, ch);
    }
  }

  /** On the top row, away from the left corner, the taps above the image are
      dropped without renormalising: a flat neighbourhood of value v sums to
      12 v instead of 16 v, so the top edge comes out darker, at about three
      quarters of v. */
  lemma HalfSizeTopEdge(img: Image, j: nat, ch: nat, v: byte)
    requires img.Valid() && 0 < img.height / 2 && 1 <= j < img.width / 2 && ch < 3
    requires FlatBelow(img, 0, j, 0, ch, v)
    ensures HalfWindow(img, 0, j, 3, ch) == 12 * v
    ensures Normalize(HalfWindow(img, 0, j, 3, ch), HalfDiv) == (24 * v + 16) / 32
  {
    HalfRowTotals();
    HalfWindowRows(img, 0, j, ch);
    OffImageRow(img, 0, j, 0, 3, ch);
    FlatHalfRow(img, 0, j, 1, 3, ch, v);
    FlatHalfRow(img, 0, j, 2, 3, ch, v);
    if v > 0 {
      NormalizeNoWrap(12 * v, HalfDiv);
    } else {
      NormalizeUniform(0, HalfDiv);
    }
  }

  /** In the left column the tap left of the image is dropped: a window row on
      the image whose first two pixels have value v sums to v times its middle
      and right weights. */
  lemma LeftEdgeHalfRow(img: Image, i: nat, h: nat, ch: nat, v: byte)
    requires img.Valid() && h < 3 && ch < 3 && 2 <= img.width && 0 <= 2 * i + h - 1 < img.height
    requires Channel(img.At(2 * i + h - 1, 0), ch) == v && Channel(img.At(2 * i + h - 1, 1), ch) == v
    ensures HalfRow(img, i, 0, h, 3, ch) == v * (HalfKernel[h][1] + HalfKernel[h][2])
  {
    assert HalfRow(img, i, 0, h, 1, ch) == 0;
  }

  /** The window of the top-left output keeps only the taps on input rows 0
      and 1 and columns 0 and 1, whose weights add up to 9. */
  lemma TopLeftWindow(img: Image, ch: nat, v: byte)
    requires img.Valid() && 0 < img.height / 2 && 0 < img.width / 2 && ch < 3
    requires FlatBelow(img, 0, 0, 0, ch, v)
    ensures HalfWindow(img, 0, 0, 3, ch) == 9 * v
  {
    assert Channel(img.At(0, 0), ch) == v && Channel(img.At(0, 1), ch) == v;
    assert Channel(img.At(1, 0), ch) == v && Channel(img.At(1, 1), ch) == v;
    HalfWindowRows(img, 0, 0, ch);
    OffImageRow(img, 0, 0, 0, 3, ch);
    LeftEdgeHalfRow(img, 0, 1, ch, v);
    LeftEdgeHalfRow(img, 0, 2, ch, v);
  }

  /** At the top-left output both the row above and the column left of the
      image are dropped: a flat neighbourhood of value v sums to 9 v of 16 v,
      and the corner comes out at about nine sixteenths of v. */
  lemma HalfSizeTopLeftCorner(img: Image, ch: nat, v: byte)
    requires img.Valid() && 0 < img.height / 2 && 0 < img.width / 2 && ch < 3
    requires FlatBelow(img, 0, 0, 0, ch, v)
    ensures HalfWindow(img, 0, 0, 3, ch) == 9 * v
    ensures Normalize(HalfWindow(img, 0, 0, 3, ch), HalfDiv) == (18 * v + 16) / 32
  {
    TopLeftWindow(img, ch, v);
    if v > 0 {
      NormalizeNoWrap(9 * v, HalfDiv);
    } else {
      NormalizeUniform(0, HalfDiv);
    }
  }
}

=== FILE: stroke.dfy ===
/** Paint_Stroke: paints a filled disc of the stroke's colour centred on the
    stroke's position, and blends the ring just outside it half-and-half with
    what is there. Offsets run over the square of side 2 * radius + 1 around
    the centre; positions off the image are skipped. */
module Strokes {
  import opened Raster

  /** A brush stroke: radius, centre column x, centre row y, and RGBA colour. */
  datatype Stroke = Stroke(radius: nat, x: nat, y: nat, r: byte, g: byte, b: byte, a: byte)

  function StrokeColour(s: Stroke): Pixel {
    Pixel(s.r, s.g, s.b, s.a)
  }

  /** Each channel replaced by the integer mean of the old value and the stroke's:
      twice the new value is the sum of the two, or one less, so it lies between them. */
  function Blend(p: Pixel, s: Stroke): (q: Pixel)
    ensures 2 * q.r <= p.r + s.r < 2 * q.r + 2
    ensures 2 * q.g <= p.g + s.g < 2 * q.g + 2
    ensures 2 * q.b <= p.b + s.b < 2 * q.b + 2
    ensures 2 * q.a <= p.a + s.a < 2 * q.a + 2
    ensures Between(q.r, p.r, s.r) && Between(q.g, p.g, s.g)
    ensures Between(q.b, p.b, s.b) && Between(q.a, p.a, s.a)
  {
    Pixel((p.r + s.r) / 2, (p.g + s.g) / 2, (p.b + s.b) / 2, (p.a + s.a) / 2)
  }

  /** `v` lies between `x` and `y`, whichever is smaller. */
  predicate Between(v: int, x: int, y: int) {
    (x <= y ==> x <= v <= y) && (y <= x ==> y <= v <= x)
  }

  /** The offset (dx, dy) = (col - x, row - y) lies in the square the source scans. */
  predicate InSquare(s: Stroke, row: int, col: int) {
    var rad := s.radius as int;
    -rad <= col - s.x <= rad && -rad <= row - s.y <= rad
  }

  function DistSquared(s: Stroke, row: int, col: int): int {
    (col - s.x) * (col - s.x) + (row - s.y) * (row - s.y)
  }

  /** What the stroke does to the pixel p at (row, col): inside the square, the
      disc gets the stroke colour and the ring at squared distance radius^2 + 1
      is blended; everything else is left as it is. */
  function StrokePixel(s: Stroke, row: int, col: int, p: Pixel): Pixel {
    if InSquare(s, row, col) then
      var d2 := DistSquared(s, row, col);
      if d2 <= s.radius * s.radius then StrokeColour(s)
      else if d2 == s.radius * s.radius + 1 then Blend(p, s)
      else p
    else p
  }

  /** The stroke in terms of distance alone: the square the source scans drops
      nothing except the ring of a stroke of radius 0. */
  lemma StrokeGeometry(s: Stroke, row: int, col: int, p: Pixel)
    ensures DistSquared(s, row, col) <= s.radius * s.radius ==> StrokePixel(s, row, col, p) == StrokeColour(s)
    ensures DistSquared(s, row, col) == s.radius * s.radius + 1 ==>
      StrokePixel(s, row, col, p) == if s.radius > 0 then Blend(p, s) else p
    ensures DistSquared(s, row, col) > s.radius * s.radius + 1 ==> StrokePixel(s, row, col, p) == p
  {
    var rad, dx, dy := s.radius as int, col - s.x, row - s.y;
    var d2 := DistSquared(s, row, col);
    if d2 <= rad * rad + 1 && (rad > 0 || d2 <= rad * rad) {
      SquareBound(dx, dy, rad);
      SquareBound(dy, dx, rad);
    } else if d2 == rad * rad + 1 {
      assert rad == 0;
    }
  }

  /** A squared offset within radius^2 + 1 has each coordinate within the radius,
      except for radius 0, where the bound radius^2 is needed. */
  lemma SquareBound(dx: int, dy: int, rad: int)
    requires rad >= 0
    requires dx * dx + dy * dy <= rad * rad + 1 && (rad > 0 || dx * dx + dy * dy <= rad * rad)
    ensures -rad <= dx <= rad
  {
    if dx > rad || dx < -rad {
      var e := if dx > 0 then dx else -dx;
      assert e >= rad + 1 >= 1;
      assert e * e >= (rad + 1) * (rad + 1) by {
        MulMono(rad + 1, e, rad + 1);
        MulMono(rad + 1, e, e);
      }
    }
  }

  /** Offset (col - x, row - y) comes before offset (xo, yo) in the source's scan:
      x offsets in the outer loop, y offsets in the inner one. */
  predicate ScannedBefore(s: Stroke, row: int, col: int, xo: int, yo: int) {
    var dx, dy := col - s.x, row - s.y;
    dx < xo || (dx == xo && dy < yo)
  }

  /** The pixel p at (row, col) once the scan has reached offset (xo, yo). */
  function Scanned(s: Stroke, row: int, col: int, xo: int, yo: int, p: Pixel): Pixel {
    if ScannedBefore(s, row, col, xo, yo) then StrokePixel(s, row, col, p) else p
  }

  /** Nothing is painted before the scan starts, finishing one x offset is starting
      the next, and the finished scan has painted the whole stroke. */
  lemma ScanBoundaries(s: Stroke, row: int, col: int, p: Pixel, xo: int)
    ensures Scanned(s, row, col, -(s.radius as int), -(s.radius as int), p) == p
    ensures Scanned(s, row, col, xo, s.radius + 1, p) == Scanned(s, row, col, xo + 1, -(s.radius as int), p)
    ensures Scanned(s, row, col, s.radius + 1, -(s.radius as int), p) == StrokePixel(s, row, col, p)
  {
  }

  /** Pixel (row, col) of a buffer of the given width, or black off the buffer. */
  function PixelAt(data: seq<Pixel>, width: nat, row: nat, col: nat): Pixel {
    var k := Idx(width, row, col);
    if k < |data| then data[k] else Pixel(0, 0, 0, 0)
  }

  /** Paints the stroke in place, scanning the offsets in the source's order. Each
      pixel is reached at most once, so the blend reads the pixel's original value. */
  method PaintStroke(img: Image, s: Stroke) returns (out: Image)
    requires img.Valid()
    ensures out.Valid() && out.width == img.width && out.height == img.height
    ensures forall row, col | 0 <= row < img.height && 0 <= col < img.width ::
      out.At(row, col) == StrokePixel(s, row, col, img.At(row, col))
  {
    var w, h, rad := img.width, img.height, s.radius as int;
    var data := img.pixels;
    forall row, col | 0 <= row < h && 0 <= col < w
      ensures PixelAt(data, w, row, col) == Scanned(s, row, col, -rad, -rad, img.At(row, col))
    {
      IdxBounds(w, h, row, col);
      ScanBoundaries(s, row, col, img.At(row, col), -rad);
    }
    var xo := -rad;
    while xo <= rad
      invariant -rad <= xo <= rad + 1 && |data| == w * h
      invariant forall row, col | 0 <= row < h && 0 <= col < w ::
        PixelAt(data, w, row, col) == Scanned(s, row, col, xo, -rad, img.At(row, col))
    {
      var yo := -rad;
      while yo <= rad
        invariant -rad <= yo <= rad + 1 && |data| == w * h
        invariant forall row, col | 0 <= row < h && 0 <= col < w ::
          PixelAt(data, w, row, col) == Scanned(s, row, col, xo, yo, img.At(row, col))
      {
        var col, row := s.x + xo, s.y + yo;
        if 0 <= col < w && 0 <= row < h {
          data := PaintAt(img, s, data, row, col, xo, yo);
        } else {
          forall i, j | 0 <= i < h && 0 <= j < w
            ensures Scanned(s, i, j, xo, yo, img.At(i, j)) == Scanned(s, i, j, xo, yo + 1, img.At(i, j))
          {
            assert (i, j) != (row, col);
          }
        }
        yo := yo + 1;
      }
      forall row, col | 0 <= row < h && 0 <= col < w
        ensures PixelAt(data, w, row, col) == Scanned(s, row, col, xo + 1, -rad, img.At(row, col))
      {
        ScanBoundaries(s, row, col, img.At(row, col), xo);
      }
      xo := xo + 1;
    }
    out := Image(w, h, data);
    forall row, col | 0 <= row < h && 0 <= col < w
      ensures out.At(row, col) == StrokePixel(s, row, col, img.At(row, col))
    {
      IdxBounds(w, h, row, col);
      ScanBoundaries(s, row, col, img.At(row, col), xo);
    }
  }

  /** One step of the scan: the pixel at offset (xo, yo) from the centre, which
      lies on the image and has not been reached yet, is painted. */
  function PaintAt(img: Image, s: Stroke, data: seq<Pixel>, row: nat, col: nat, xo: int, yo: int): (data': seq<Pixel>)
    requires img.Valid() && |data| == img.width * img.height
    requires row < img.height && col < img.width && col == s.x + xo && row == s.y + yo
    requires -(s.radius as int) <= xo <= s.radius && -(s.radius as int) <= yo <= s.radius
    requires forall i, j | 0 <= i < img.height && 0 <= j < img.width ::
      PixelAt(data, img.width, i, j) == Scanned(s, i, j, xo, yo, img.At(i, j))
    ensures |data'| == |data|
    ensures forall i, j | 0 <= i < img.height && 0 <= j < img.width ::
      PixelAt(data', img.width, i, j) == Scanned(s, i, j, xo, yo + 1, img.At(i, j))
  {
    var w, h := img.width, img.height;
    IdxBounds(w, h, row, col);
    var k := Idx(w, row, col);
    var p := data[k];
    var d2 := xo * xo + yo * yo;
    var q := if d2 <= s.radius * s.radius then StrokeColour(s)
      else if d2 == s.radius * s.radius + 1 then Blend(p, s)
      else p;
    assert !ScannedBefore(s, row, col, xo, yo);
    assert PixelAt(data, img.width, row, col) == Scanned(s, row, col, xo, yo, img.At(row, col));
    assert p == img.At(row, col);
    assert InSquare(s, row, col) && DistSquared(s, row, col) == d2;
    var data' := data[k := q];
    PaintAtFrame(img, s, data, data', row, col, xo, yo, q);
    data'
  }

  lemma PaintAtFrame(img: Image, s: Stroke, data: seq<Pixel>, data': seq<Pixel>, row: nat, col: nat, xo: int, yo: int, q: Pixel)
    requires img.Valid() && |data| == img.width * img.height
    requires row < img.height && col < img.width && col == s.x + xo && row == s.y + yo
    requires -(s.radius as int) <= xo <= s.radius && -(s.radius as int) <= yo <= s.radius
    requires forall i, j | 0 <= i < img.height && 0 <= j < img.width ::
      PixelAt(data, img.width, i, j) == Scanned(s, i, j, xo, yo, img.At(i, j))
    requires Idx(img.width, row, col) < |data|
    requires data' == data[Idx(img.width, row, col) := q]
    requires q == StrokePixel(s, row, col, img.At(row, col))
    ensures forall i, j | 0 <= i < img.height && 0 <= j < img.width ::
      PixelAt(data', img.width, i, j) == Scanned(s, i, j, xo, yo + 1, img.At(i, j))
  {
    var w, h := img.width, img.height;
    forall i, j | 0 <= i < h && 0 <= j < w
      ensures PixelAt(data', w, i, j) == Scanned(s, i, j, xo, yo + 1, img.At(i, j))
    {
      IdxBounds(w, h, i, j);
      if i == row && j == col {
      } else {
        if Idx(w, i, j) == Idx(w, row, col) {
          IdxInjective(w, i, j, row, col);
        }
      }
    }
  }
}
